=== FILE: README.md ===
# NewsApp core in Dafny

NewsApp is a news-aggregation site. Editors publish posts that link to outside articles, and readers see them on a homepage with featured, latest, trending and per-category blocks. Free readers reach a post only while it is inside a free-access window after publication. Premium posts and older posts need a paid membership, which is sold and kept in step through the billing provider's checkout and webhooks. Advertisements are drawn at random from the ads whose time window is open.

This project models that core as pure functions over immutable data, and proves what the code promises about it:

| module | file | models |
|---|---|---|
| `Base` | `base.dfy` | optional values, JavaScript truthiness, `\|\|` and `??` defaults, `slice` end arithmetic, character classes, decimal rendering |
| `Http` | `http.dfy` | the session, the JSON body, replies with status codes, and the two admin gates |
| `Listing` | `listing.dfy` | the store's `findMany`/`findFirst`: `where` filter, stable descending sort, `take` |
| `Content` | `content.dfy` | posts, categories, the store's unique keys and the public-visibility rule |
| `Utils` | `utils.dfy` | `formatDate`, `slugify`, `truncate`, `isWithinFreeAccess` |
| `Membership` | `membership.dfy` | the membership table, `getMembershipInfo`, `canAccessPost`, `createOrUpdateMembership` |
| `StripeWebhook` | `stripe_webhook.dfy` | the billing webhook: guards, the three handled events, the status map |
| `Ads` | `ads.dfy` | `getActiveAds`, `getRandomAd`, `getRandomAds` |
| `HomePage` | `home_page.dfy` | the homepage's queries and their composition |
| `AdminPostsApi`, `AdminAdsApi`, `AdminCategoriesApi` | `admin_*_api.dfy` | the admin `GET`/`POST` routes with their role gates and defaults |
| `NewsletterApi` | `newsletter_api.dfy` | newsletter subscribe |
| `CheckoutApi` | `checkout_api.dfy` | the choice between the billing portal and a new checkout |
| `AdminSidebar` | `admin_sidebar.dfy` | which navigation entry is highlighted |
| `PostForm` | `post_form.dfy` | the new-post form's schema and what it submits |

## How the model stands in for the environment

- **Time.** The clock is an `int` of milliseconds passed as `now`. Dates are the same integers; `null` dates are `Option<int>`.
- **Store failures.** A failing store or billing SDK call is a boolean parameter, so every route's error reply is reachable.
- **Opaque checks and calls.** These are function parameters:
  - date parsing;
  - the schema's e-mail and URL checks;
  - `toISOString`;
  - the provider's subscription lookup.
- **`Math.random()`.**
  - For `getRandomAd` it is a `real` in `[0, 1)`.
  - For the shuffle in `getRandomAds` it is a nondeterministic choice among all permutations.
- **Null ordering.** Where the store sorts on a nullable column, the database's placement of nulls is a boolean `nullsFirst`.
- **Store updates.** In a store update, a field that is absent from the update is `Keep` and a field that is present is `Put(v)`, as the store leaves or writes it.

On `customer.subscription.updated`, the webhook maps every provider status other than `canceled` and `past_due` to `ACTIVE`, unknown ones included, and overwrites the row's status whatever it held before. A CANCELLED membership is therefore reactivated by any later update that is neither `canceled` nor `past_due` (`StripeWebhook.UpdateCanReactivate`).

The sidebar matches on a plain string prefix with no path separator, so `/admin/postsX` also highlights Posts. The model keeps this behaviour. It proves that no two entries are ever highlighted at once (`AdminSidebar.ActiveIndexIsTheOnlyActive`).

## Model

| member | source | states |
|---|---|---|
| Membership.GetMembershipInfo | src/lib/membership.ts:12-33 | no user id or no row gives the FREE info; otherwise the row's status and end date, and premium only when the status is ACTIVE and the end date is absent or still ahead |
| Membership.OnlyActiveUnexpiredIsPremium | src/lib/membership.ts:25-26 | a non-ACTIVE row is never premium, an end date equal to now has lapsed, and an ACTIVE row without end date is premium |
| Membership.PremiumLapsesForGood | src/lib/membership.ts:25-26 | once a reader is not premium, no later instant makes them premium again without a write |
| Membership.CanAccessPost | src/lib/membership.ts:35-61 | premium readers reach everything; others are refused premium posts with the premium reason, and refused other posts with the archive reason exactly when the post is outside the free window; access holds iff no reason is given |
| Membership.DefaultWindowBoundary | src/lib/membership.ts:4 | with the default of 7 days, a post 7 days old is open and one 8 days old is archived |
| Membership.AnonymousReaderIsFree | src/lib/membership.ts:13-23 | a reader without a session or without a row still reads every non-premium post within its window |
| Membership.CreateOrUpdateMembership | src/lib/membership.ts:63-80 | the upsert keeps the one-row-per-user key, leaves other users' rows alone, writes the status and every supplied field, keeps the absent ones, and appends a new user to the scan order |
| Membership.UpsertIdempotent | src/lib/membership.ts:63-80 | applying the same upsert twice gives the same table as once |
| Utils.FormatDate | src/lib/utils.ts:7-25 | the five buckets partition the elapsed time at one minute, one hour, one day and seven days, and each count is the floor of the elapsed time in that unit |
| Utils.FormatDateBucketsAreMonotone | src/lib/utils.ts:10-18 | as time passes the bucket's rank (just now, minutes, hours, days, calendar date) never goes down, and within one bucket the count never goes down |
| Utils.RelativeText | src/lib/utils.ts:15-18 | only the calendar-date bucket has no relative text, and every relative text reads back as its bucket and its count |
| Utils.Slugify | src/lib/utils.ts:27-34 | the result holds only lower-case letters, digits and single dashes, and neither starts nor ends with a dash |
| Utils.SlugifyFixesSlugs | src/lib/utils.ts:27-34 | every slug is its own slugification |
| Utils.SlugifyIdempotent | src/lib/utils.ts:27-34 | slugifying twice equals slugifying once |
| Utils.Truncate | src/lib/utils.ts:36-39 | text within the limit is returned unchanged; longer text becomes the trim of its first `length` characters (a contiguous piece with only white space around it and none at its ends), followed by `...` |
| Utils.TrimmedSliceIsUnique | src/lib/utils.ts:38 | a string has only one such trimmed piece, so the description above fixes the truncated text |
| Utils.TruncateKeepsVisiblePrefix | src/lib/utils.ts:36-39 | when the cut lands between non-blank characters, the result is exactly the first `length` characters and `...` |
| Utils.IsWithinFreeAccess | src/lib/utils.ts:42-47 | an undated post is always free; a dated one is free while its whole elapsed days are at most the window |
| Utils.FreeAccessBoundary | src/lib/utils.ts:42-47 | a post exactly `days` days old is free and one a day older is not |
| Utils.FutureIsWithinFreeAccess | src/lib/utils.ts:42-47 | a post dated in the future counts negative days and is free |
| Utils.FreeAccessExpiresForGood | src/lib/utils.ts:42-47 | once the window has closed it stays closed |
| Ads.ParsePosition | src/app/api/admin/ads/route.ts:29-36 | the store accepts exactly the three names of the position enum as a new ad's position, each standing for the position it names |
| Ads.QueryIsWindow | src/lib/ads.ts:9-38 | the query's four alternatives are exactly "active, right position, each set bound inclusive" |
| Ads.WindowBounds | src/lib/ads.ts:12-37 | an ad whose bounds both equal now is shown, an unbounded active ad is shown, and a closed, not yet open or inactive ad is not |
| Ads.GetActiveAds | src/lib/ads.ts:5-42 | the result holds each eligible stored ad with its multiplicity, and nothing else |
| Ads.ActiveAdsAreTheEligibleOnes | src/lib/ads.ts:5-42 | an ad is returned iff it is stored and eligible |
| Ads.GetRandomAd | src/lib/ads.ts:44-51 | no ad iff none is eligible; otherwise an eligible stored ad |
| Ads.EveryEligibleAdCanBePicked | src/lib/ads.ts:49-50 | each eligible ad is the pick for some value of the random draw |
| Ads.GetRandomAds | src/lib/ads.ts:53-60 | for a non-negative count, `min(count, eligible)` ads drawn without replacement from the eligible ones; none when none is eligible |
| StripeWebhook.MapProviderStatus | src/app/api/stripe/webhook/route.ts:66-69 | `canceled` maps to CANCELLED, `past_due` to PAST_DUE, and every other status to ACTIVE |
| StripeWebhook.FindFirstByCustomer | src/app/api/stripe/webhook/route.ts:61-63 | the match found holds the customer id, and no match means no row holds it |
| StripeWebhook.HandleEvent | src/app/api/stripe/webhook/route.ts:33-97 | the handler fails only on a store error, or on a checkout whose subscription lookup fails; a checkout with a user and a subscription changes only that user's row, making it ACTIVE; an update or deletion changes only the first row holding the customer, keeps its customer id and sets the mapped or CANCELLED status; every other event leaves the table as it was |
| StripeWebhook.Webhook | src/app/api/stripe/webhook/route.ts:8-104 | the guards answer 500, 400 and 400 without touching the table; any reply other than `received` leaves the table as it was; status 200 iff the event was received; the table stays valid |
| StripeWebhook.CheckoutCompletedEffect | src/app/api/stripe/webhook/route.ts:35-53 | a completed checkout with a user and a subscription upserts that user as ACTIVE with the customer, subscription and end date |
| StripeWebhook.CheckoutWithoutUserOrSubscriptionIsNoop | src/app/api/stripe/webhook/route.ts:39 | without a user id or a subscription the event is acknowledged and nothing changes |
| StripeWebhook.SubscriptionUpdatedEffect | src/app/api/stripe/webhook/route.ts:55-77 | the first row holding the customer gets the mapped status and the new end date, and keeps its ids |
| StripeWebhook.SubscriptionDeletedEffect | src/app/api/stripe/webhook/route.ts:79-94 | the first row holding the customer becomes CANCELLED and keeps everything else |
| StripeWebhook.UnmatchedOrUnknownEventIsNoop | src/app/api/stripe/webhook/route.ts:65-95 | an unknown event type, or an update or deletion for an unknown customer, changes nothing |
| StripeWebhook.UpdateCanReactivate | src/app/api/stripe/webhook/route.ts:66-74 | an `active` update turns a CANCELLED row back to ACTIVE |
| StripeWebhook.CheckoutGrantsPremium | src/app/api/stripe/webhook/route.ts:45-50 | after a completed checkout whose period ends in the future, the user is premium |
| StripeWebhook.WebhookIdempotent | src/app/api/stripe/webhook/route.ts:33-97 | delivering the same event twice leaves the table as one delivery does |
| Content.PublicWhereIsVisibility | src/app/page.tsx:8-31 | the public `where` is "published and due", drafts are never visible, and visibility persists over time |
| Listing.Filter | src/app/page.tsx:8-110 | the `where` keeps exactly the matching rows with their multiplicities |
| Listing.FindMany | src/app/page.tsx:33-57 | exactly `min(take, matching)` rows, drawn without repetition from the matching rows and sorted by the key; fewer than `take` only when every matching row is returned |
| Listing.FindFirst | src/app/page.tsx:8-31 | a matching stored row, and none exactly when no row matches |
| Listing.FindManyTakesTheTop | src/app/page.tsx:33-57 | no matching row left out sorts above a returned one |
| Listing.FindFirstIsGreatest | src/app/page.tsx:8-31 | when a row matches, `findFirst` returns one whose key no matching row exceeds |
| HomePage.GetFeaturedPost | src/app/page.tsx:8-31 | a featured, visible, stored post; none when the query fails, and otherwise none only when no visible post is featured |
| HomePage.FeaturedIsNewestFeatured | src/app/page.tsx:8-31 | any visible featured post makes the featured slot non-empty, and none is newer than the one shown |
| HomePage.GetLatestPosts | src/app/page.tsx:33-57 | exactly `min(10, n)` of the n visible posts without the excluded id, newest first; all of them when fewer than 10 are returned |
| HomePage.LatestAreNewest | src/app/page.tsx:33-57 | no visible post left out is newer than one shown |
| HomePage.GetTrendingPosts | src/app/page.tsx:59-82 | exactly `min(5, n)` of the n visible posts, by descending views; all of them when fewer than 5 are returned |
| HomePage.TrendingAreMostViewed | src/app/page.tsx:59-82 | no visible post left out has more views than one shown |
| HomePage.GetPostsByCategory | src/app/page.tsx:84-110 | exactly `min(limit, n)` of the n visible posts of that category, newest first; all of them when fewer than `limit` are returned |
| HomePage.CategoryBlockIsNewest | src/app/page.tsx:84-110 | no visible post of the category left out is newer than one shown |
| HomePage.CategorySection | src/app/page.tsx:153-172 | a block with the category's title and slug appears iff its query returned posts, and shows exactly that result: visible posts of that category |
| HomePage.CategorySections | src/app/page.tsx:153-172 | the block of each listed category is present iff its query returned posts, and every block shows its own category's result |
| HomePage.SidebarAds | src/app/page.tsx:178-181 | at most two ads, the first draw first, never the same ad twice |
| HomePage.SidebarSlots | src/app/page.tsx:135 | both sidebar slots hold distinct eligible sidebar ads, and are empty iff no sidebar ad is eligible |
| HomePage.SingleSidebarAdShownOnce | src/app/page.tsx:178-181 | with one eligible sidebar ad, it is shown exactly once |
| HomePage.HomePage | src/app/page.tsx:112-189 | each block is its query's result (the latest block without the featured post, cut to five; the Politics, Business and Technology blocks) and each ad slot the pick of its own draw; every post shown is a visible stored one, the latest block never repeats the featured post, and every ad is eligible for its slot |
| HomePage.NoFeaturedShowsFirstFive | src/app/page.tsx:123-148 | when the page shows no featured post, the latest block is the first five latest posts |
| AdminPostsApi.ListPosts | src/app/api/admin/posts/route.ts:7-25 | staff get every post newest first, others 401; the query is unguarded, so a store failure answers the framework's 500; 200 iff staff and the store works |
| AdminPostsApi.UniqueSlug | src/app/api/admin/posts/route.ts:49-54 | the title's slug is kept iff no post has it, otherwise it gets `-` and the timestamp; a non-empty title slug gives a well-formed slug |
| AdminPostsApi.ResolveSlug | src/app/api/admin/posts/route.ts:49-54 | a free slug is kept; a taken one gets `-` and the timestamp, and stays well formed |
| AdminPostsApi.TakenSlugCarriesTimestamp | src/app/api/admin/posts/route.ts:51-53 | a taken slug is replaced by one ending in the decimal timestamp, which reads back as `now` |
| AdminPostsApi.NewPost | src/app/api/admin/posts/route.ts:56-70 | the store accepts the row iff the required fields are present, the category exists, the status (DRAFT when absent) is in the enum, a given date parses and the slug and id are free; the row carries the body's fields, null for a falsy image or label, `false` for absent flags, zero views and the creation time |
| AdminPostsApi.PublishAtOf | src/app/api/admin/posts/route.ts:56-70 | a given date is parsed; without one a PUBLISHED post is dated now and any other undated |
| AdminPostsApi.CreateSucceeds | src/app/api/admin/posts/route.ts:49-76 | a staff request with a title whose body the store accepts gets 201 with exactly the row built from the body |
| AdminPostsApi.CreatePost | src/app/api/admin/posts/route.ts:27-81 | 401 for non-staff; 201 only for a parsed body with a title and a working store, returning the appended post; failures answer 500 and leave the store unchanged; the store stays valid |
| AdminPostsApi.CreatedPostDefaults | src/app/api/admin/posts/route.ts:56-70 | a created post is authored by the caller, has zero views, and takes DRAFT, not premium and not featured when those fields are absent |
| AdminPostsApi.PublishedWithoutDateIsLive | src/app/api/admin/posts/route.ts:68-69 | a post created PUBLISHED without a date is visible at once |
| AdminPostsApi.UndatedDraftIsHidden | src/app/api/admin/posts/route.ts:56-70 | a post created without status or date is a draft and never visible |
| AdminAdsApi.ListAds | src/app/api/admin/ads/route.ts:6-18 | staff get every ad newest first, others 401; the query is unguarded, so a store failure answers the framework's 500; 200 iff staff and the store works |
| AdminAdsApi.DateOrNull | src/app/api/admin/ads/route.ts:37-38 | a falsy value is null and any other is parsed |
| AdminAdsApi.NewAd | src/app/api/admin/ads/route.ts:31-41 | the store accepts the row iff title and link are present, the position is one of the three, given dates parse and the id is free; the row carries the body's fields, null for a falsy image or date, and is active unless `isActive` is explicitly `false` |
| AdminAdsApi.CreateAd | src/app/api/admin/ads/route.ts:20-48 | only an ADMIN may create; for an ADMIN with a parsed body and a working store the reply is 201 iff the store accepts the row, and the 201 returns exactly that row, appended; every failure leaves the ads unchanged |
| AdminAdsApi.CreateAdSucceeds | src/app/api/admin/ads/route.ts:27-43 | an ADMIN request whose body the store accepts gets 201 with the built ad, appended to the table |
| AdminAdsApi.EditorListsButCannotCreate | src/app/api/admin/ads/route.ts:9-25 | an EDITOR may list ads but is refused creation |
| AdminAdsApi.ExplicitlyInactiveAdIsNeverServed | src/app/api/admin/ads/route.ts:39 | an ad created with `isActive: false` is stored inactive and never selected |
| AdminCategoriesApi.ListCategories | src/app/api/admin/categories/route.ts:6-18 | staff get every category by ascending sort order, others 401; the query is unguarded, so a store failure answers the framework's 500; 200 iff staff and the store works |
| AdminCategoriesApi.NameSlug | src/app/api/admin/categories/route.ts:34 | the fallback slug is lower case, has no white space, is empty iff the name is, and keeps every lower-cased character other than white space and `-` in order |
| Utils.ReplaceRunsKeepsUntouched | src/lib/utils.ts:32 | replacing runs of a character class by `-` keeps every character outside the class, other than `-`, in its order |
| AdminCategoriesApi.NameSlugKeepsEdges | src/app/api/admin/categories/route.ts:34 | unlike `slugify`, the fallback turns leading white space into a leading dash |
| AdminCategoriesApi.CategorySlug | src/app/api/admin/categories/route.ts:34 | a given slug is kept verbatim, else the name's fallback slug is used |
| AdminCategoriesApi.SortOrderOf | src/app/api/admin/categories/route.ts:35 | a missing or zero sort order is 0, any other is kept |
| AdminCategoriesApi.CreateCategory | src/app/api/admin/categories/route.ts:20-44 | for staff with a named body and a working store the reply is 201 iff the slug and the new id are free, returning the appended category with that id; every failure leaves the store unchanged; the store stays valid |
| AdminCategoriesApi.CreateCategorySucceeds | src/app/api/admin/categories/route.ts:27-39 | staff with a named body, a free slug and a free id get 201 with exactly the category built from the body, appended |
| NewsletterApi.CheckEmail | src/app/api/newsletter/route.ts:5-12 | the address passes iff it is a string the e-mail check accepts; a missing key reports `Required`, a `null` the received-null type error, and any other string the invalid-address message |
| NewsletterApi.Subscribe | src/app/api/newsletter/route.ts:9-73 | a bad address answers 400, a known one 200, a new one 201 and adds exactly that address; only 201 changes the subscribers or calls the provider |
| NewsletterApi.SubscribeIsIdempotent | src/app/api/newsletter/route.ts:15-24 | subscribing again answers 200 and leaves the subscribers as the first time did |
| NewsletterApi.ProviderFailureIsInvisible | src/app/api/newsletter/route.ts:32-53 | a failing provider changes neither the reply nor the subscribers |
| NewsletterApi.PlaceholderIsNeverCalled | src/app/api/newsletter/route.ts:32-35 | the placeholder URL and a missing URL never trigger a provider call |
| CheckoutApi.StartCheckout | src/app/api/stripe/checkout/route.ts:7-43 | 401 without a user; for a signed-in user with a parsed body, 200 iff billing is configured and no call fails, else 500; a 200 is the portal iff it was asked for and a customer id is stored, else a new checkout for the caller |
| CheckoutApi.PortalForStoredCustomer | src/app/api/stripe/checkout/route.ts:23-27 | a signed-in user who asks for the portal and has a stored customer id gets that customer's portal |
| CheckoutApi.PortalNeedsStoredCustomer | src/app/api/stripe/checkout/route.ts:23-35 | without a portal request or a stored customer the caller gets a new checkout |
| AdminSidebar.ActiveRule | src/components/admin/AdminSidebar.tsx:42-43 | an entry is active on its own path; Dashboard only there; every other entry on every path it prefixes |
| AdminSidebar.NewPostFormHighlightsPosts | src/components/admin/AdminSidebar.tsx:16-43 | the new-post page highlights Posts and not Dashboard |
| AdminSidebar.NeverTwoActive | src/components/admin/AdminSidebar.tsx:16-43 | no path highlights two entries |
| AdminSidebar.ActiveIndex | src/components/admin/AdminSidebar.tsx:16-43 | the index found is active, and none found means no entry is active |
| AdminSidebar.ActiveIndexIsTheOnlyActive | src/components/admin/AdminSidebar.tsx:16-43 | an active entry is the one found, and every other entry is inactive |
| PostForm.SchemaErrors | src/app/admin/posts/new/page.tsx:12-23 | each field is rejected iff its rule fails: an empty title, an external URL that is not a URL, a summary under 10 characters, an empty category, a status outside the three, an image URL that is non-empty and not a URL |
| PostForm.EmptyExternalUrlIsRejected | src/app/admin/posts/new/page.tsx:14-17 | an empty external URL fails the schema when the URL check rejects the empty string, while an empty image URL always passes |
| PostForm.Submit | src/app/admin/posts/new/page.tsx:60-85 | submission fails iff a given date does not convert; otherwise every field is sent as entered (title, link, summary, category, label, flags, status), a falsy image URL or date as null, and a date as its ISO text |
| PostForm.AcceptedFormIsCreated | src/app/admin/posts/new/page.tsx:60-85 | a valid form from staff, with a known category and free slug and id, creates a post by the caller with the title's unique slug, carrying the entered title, link, summary, category, status and flags, the image and label or null when falsy, and the converted date, or the creation time for an undated PUBLISHED post |
| PostForm.DefaultFormCreatesHiddenDraft | src/app/admin/posts/new/page.tsx:44-48 | the form's defaults create a non-premium, non-featured draft that is never visible |
| Http.AdminGateIsStricter | src/app/api/admin/ads/route.ts:23-25 | the ADMIN gate admits a subset of the staff gate, the difference is EDITOR, and a READER passes neither |
| Base.BoolDefaults | src/app/api/admin/ads/route.ts:39 | with a `false` default, `\|\|` and `??` agree; `\|\| true` is always true, while `?? true` is false exactly for an explicit `false` |
| Base.NatToStringRoundTrip | src/app/api/admin/posts/route.ts:53 | the decimal text of a timestamp reads back as the same number |

## Left out

- The React rendering, layout, navigation and client-side fetching are left out; only what the pages compute is modelled.
- The database, the session library and the billing SDK are left out.
  - Their outcomes are inputs: a failure flag, the session value, a signature-valid flag and a subscription lookup function.
  - Cascades and `include` relations are not modelled.
  - The author of a new post is not checked against the users table.
- formatDate's calendar-date branch calls `toLocaleDateString`. The model returns the date bucket and leaves out the locale formatting.
- Case mapping is ASCII-only: `toLowerCase` of a non-ASCII letter is left out.
- Utils.Truncate: Dafny strings count Unicode scalar values, while JavaScript's `length` and `slice` count UTF-16 code units. On characters outside the Basic Multilingual Plane the cut point and the `length` test therefore differ from the source, and a cut that splits a surrogate pair is not modelled.
- PostForm.SchemaErrors: for the same reason the 10-character summary minimum and the non-empty title and category tests count Unicode scalar values, not UTF-16 code units, and differ from the source on characters outside the Basic Multilingual Plane.
- White space is JavaScript's full `\s` set (`Base.IsSpace`).
- Reading `FREE_ACCESS_DAYS` from the environment is left out: the window is a parameter, and 7 is the default. A non-numeric value, whose `parseInt` gives NaN, is not modelled.
- Date parsing, the schema's e-mail and URL checks and `toISOString` are opaque parameters, so their own rules are left out.
- JSON bodies hold strings, numbers, booleans or nothing. A value of another JSON type in a field is not modelled.
- Concurrent requests, and billing events that arrive out of order, are left out: each request is one step on the stored state.
- The quality of the random draws is left out: the shuffle is any permutation, and no probabilities are claimed.
- Where the database places nulls is the `nullsFirst` parameter. The order among rows with equal sort keys is the stable order of the scan.
- StripeWebhook.WebhookIdempotent: the webhook's `findFirst` by customer id has no `orderBy`, so when several rows hold one customer id the database may return any of them, and an update may change which. The model reads the rows in a fixed scan order that writes never reorder, so replay idempotence of update and delete events is proved only under that order.
- A failing ad query on the homepage throws and fails the page render. The model leaves this error path out, because the page has no handler for it. (The three admin `GET` handlers, which also have no handler, are modelled with the framework's 500.)
- NewsletterApi.CheckEmail: the messages are zod 3's texts; a body that is not a JSON object, and an `email` of another non-string JSON type, are not modelled.
- PostForm.AcceptedFormIsCreated: the date clause covers an ISO text that is non-empty, as `toISOString` always returns; the opaque `toIso` parameter is not otherwise constrained.
- Ads.GetRandomAds: no page calls `getRandomAds` (the pages call `getRandomAd`); it is modelled for a given count, and its default `count = 1` is not modelled. For a negative count it states only the eligibility and the bound by the eligible ads.
- AdminPostsApi.CreatePost: one `now` stands for the separate clock reads of the route, `Date.now()` for a taken slug's suffix and `new Date()` for an undated PUBLISHED post (and the store's `createdAt` default); the model treats them as one instant.
- On the checkout route, a `getServerSession` failure inside the `try` is folded into the store-failure flag.
- The admin routes for single posts and ads, the membership page and the seed script are outside this model.

=== FILE: admin_ads_api.dfy ===
/** `src/app/api/admin/ads/route.ts`: listing ads for the staff and
    creating one, which only an ADMIN may do. */
module AdminAdsApi {
  import opened Base
  import opened Http
  import opened Listing
  import opened Ads

  /** `orderBy: { createdAt: "desc" }`. */
  function AdCreatedAtKey(): Ad -> SortKey {
    (a: Ad) => SortKey(a.createdAt, 0)
  }

  /** `GET`: the staff see every ad, newest first. The query is not
      guarded, so a store failure (`storeFails`) escapes the handler. */
  function ListAds(session: Option<Session>, ads: seq<Ad>, storeFails: bool): (r: Reply<seq<Ad>>)
    ensures !IsStaff(session) ==> r == Unauthorized()
    ensures IsStaff(session) && storeFails ==> r == Uncaught()
    ensures r.status == 200 <==> IsStaff(session) && !storeFails
    ensures r.status == 200 ==> r.payload.Data?
    ensures r.status == 200 ==> multiset(r.payload.value) == multiset(ads)
    ensures r.status == 200 ==> SortedDesc(r.payload.value, AdCreatedAtKey())
  {
    if !IsStaff(session) then Unauthorized()
    else if storeFails then Uncaught()
    else Reply(200, Data(SortDesc(ads, AdCreatedAtKey())))
  }

  /** The fields `POST` reads from the body; a missing key or a `null` is
      `None`. */
  datatype AdBody = AdBody(
    title: Option<string>,
    imageUrl: Option<string>,
    linkUrl: Option<string>,
    position: Option<string>,
    activeFrom: Option<string>,
    activeTo: Option<string>,
    isActive: Option<bool>)

  const CREATE_AD_FAILED: Reply<Ad> := Reply(500, Failure("Failed to create ad"))

  /** `v ? new Date(v) : null`: a falsy value is null, any other is parsed;
      `None` when the parsed date is invalid and the store rejects it. */
  function DateOrNull(v: Option<string>, parseDate: string -> Option<int>): (r: Option<Option<int>>)
    ensures !Truthy(v) ==> r == Some(None)
    ensures Truthy(v) ==> (r.Some? <==> parseDate(v.value).Some?)
    ensures Truthy(v) && r.Some? ==> r.value == parseDate(v.value)
  {
    if !Truthy(v) then Some(None)
    else
      match parseDate(v.value)
      case None => None
      case Some(t) => Some(Some(t))
  }

  predicate AdIdTaken(ads: seq<Ad>, id: string) {
    exists i :: 0 <= i < |ads| && ads[i].id == id
  }

  /** The row `prisma.ad.create` would insert, or `None` when the store
      rejects it. */
  function NewAd(ads: seq<Ad>, body: AdBody, now: int, newId: string, parseDate: string -> Option<int>): (r: Option<Ad>)
    ensures r.Some? <==>
      && body.title.Some? && body.linkUrl.Some?
      && body.position.Some? && body.position.value in {"TOP_BANNER", "SIDEBAR", "INLINE"}
      && (Truthy(body.activeFrom) ==> parseDate(body.activeFrom.value).Some?)
      && (Truthy(body.activeTo) ==> parseDate(body.activeTo.value).Some?)
      && !AdIdTaken(ads, newId)
    ensures r.Some? ==>
      var a := r.value;
      && a.id == newId && a.title == body.title.value && a.linkUrl == body.linkUrl.value && a.createdAt == now
      && PositionName(a.position) == body.position.value
      && (if Truthy(body.imageUrl) then a.imageUrl == body.imageUrl else a.imageUrl.None?)
      && (if Truthy(body.activeFrom) then a.activeFrom == parseDate(body.activeFrom.value) else a.activeFrom.None?)
      && (if Truthy(body.activeTo) then a.activeTo == parseDate(body.activeTo.value) else a.activeTo.None?)
      && (a.isActive <==> body.isActive != Some(false))
  {
    var position := if body.position.Some? then ParsePosition(body.position.value) else None;
    var activeFrom := DateOrNull(body.activeFrom, parseDate);
    var activeTo := DateOrNull(body.activeTo, parseDate);
    if || body.title.None? || body.linkUrl.None? || position.None?
       || activeFrom.None? || activeTo.None? || AdIdTaken(ads, newId)
    then None
    else
      Some(Ad(newId, body.title.value, OrElse(body.imageUrl, None), body.linkUrl.value, position.value,
              activeFrom.value, activeTo.value, BoolNullish(body.isActive, true), now))
  }

  /** `POST`: creates an ad for a signed-in ADMIN; an EDITOR is turned
      away like a reader. */
  function CreateAd(session: Option<Session>, body: JsonBody<AdBody>, ads: seq<Ad>, now: int, newId: string,
                    parseDate: string -> Option<int>, storeFails: bool): (r: Handled<seq<Ad>, Ad>)
    ensures !IsAdmin(session) ==> r.reply == Unauthorized() && r.state == ads
    ensures r.reply.status == 201 || r.reply.status == 401 || r.reply == CREATE_AD_FAILED
    ensures r.reply.status != 201 ==> r.state == ads
    ensures body.Malformed? || storeFails ==> r.reply.status != 201
    ensures r.reply.status == 201 ==>
      && body.Parsed? && r.reply.payload.Data?
      && var a := r.reply.payload.value;
      && r.state == ads + [a]
      && !AdIdTaken(ads, a.id)
      && a.createdAt == now
      && (a.isActive <==> body.value.isActive != Some(false))
      && (Truthy(body.value.imageUrl) ==> a.imageUrl == body.value.imageUrl)
      && (!Truthy(body.value.imageUrl) ==> a.imageUrl.None?)
      && (!Truthy(body.value.activeFrom) ==> a.activeFrom.None?)
      && (Truthy(body.value.activeFrom) ==> a.activeFrom == parseDate(body.value.activeFrom.value))
      && (!Truthy(body.value.activeTo) ==> a.activeTo.None?)
      && (Truthy(body.value.activeTo) ==> a.activeTo == parseDate(body.value.activeTo.value))
      && body.value.position == Some(PositionName(a.position))
    ensures IsAdmin(session) && body.Parsed? && !storeFails ==>
      (r.reply.status == 201 <==> NewAd(ads, body.value, now, newId, parseDate).Some?)
    ensures r.reply.status == 201 ==> r.reply.payload.value == NewAd(ads, body.value, now, newId, parseDate).value
  {
    if !IsAdmin(session) then Handled(Unauthorized(), ads)
    else if body.Malformed? || storeFails then Handled(CREATE_AD_FAILED, ads)
    else
      match NewAd(ads, body.value, now, newId, parseDate)
      case None => Handled(CREATE_AD_FAILED, ads)
      case Some(a) => Handled(Reply(201, Data(a)), ads + [a])
  }

  /** An ADMIN request whose body the store accepts is created. */
  lemma CreateAdSucceeds(session: Option<Session>, body: AdBody, ads: seq<Ad>, now: int, newId: string,
                         parseDate: string -> Option<int>)
    requires IsAdmin(session) && NewAd(ads, body, now, newId, parseDate).Some?
    ensures CreateAd(session, Parsed(body), ads, now, newId, parseDate, false)
      == Handled(Reply(201, Data(NewAd(ads, body, now, newId, parseDate).value)),
                 ads + [NewAd(ads, body, now, newId, parseDate).value])
  {
  }

  /** The two gates of this route: an EDITOR may list the ads but not
      create one. */
  lemma EditorListsButCannotCreate(email: string, userId: string, body: JsonBody<AdBody>, ads: seq<Ad>, now: int,
                                   newId: string, parseDate: string -> Option<int>, storeFails: bool)
    ensures var editor := Some(Session(userId, email, "EDITOR"));
      && ListAds(editor, ads, false).status == 200
      && CreateAd(editor, body, ads, now, newId, parseDate, storeFails) == Handled(Unauthorized(), ads)
  {
  }

  /** `isActive ?? true` keeps an explicit `false`: such an ad is stored
      inactive and never served, whereas an omitted flag yields an active
      ad. */
  lemma ExplicitlyInactiveAdIsNeverServed(session: Option<Session>, body: AdBody, ads: seq<Ad>, now: int, newId: string,
                                          parseDate: string -> Option<int>, at: int)
    requires CreateAd(session, Parsed(body), ads, now, newId, parseDate, false).reply.status == 201
    ensures var a := CreateAd(session, Parsed(body), ads, now, newId, parseDate, false).reply.payload.value;
      && (body.isActive == Some(false) ==> !a.isActive && forall pos :: !Eligible(a, pos, at))
      && (body.isActive.None? ==> a.isActive)
  {
  }
}

=== FILE: admin_categories_api.dfy ===
/** `src/app/api/admin/categories/route.ts`: listing and creating
    categories, both for the staff only. */
module AdminCategoriesApi {
  import opened Base
  import opened Utils
  import opened Http
  import opened Listing
  import opened Content

  /** `orderBy: { sortOrder: "asc" }`, as a descending key. */
  function SortOrderKey(): Category -> SortKey {
    (c: Category) => SortKey(-c.sortOrder, 0)
  }

  /** `GET`: the staff see every category by ascending `sortOrder`. The
      query is not guarded, so a store failure (`storeFails`) escapes the
      handler. */
  function ListCategories(session: Option<Session>, cms: Cms, storeFails: bool): (r: Reply<seq<Category>>)
    ensures !IsStaff(session) ==> r == Unauthorized()
    ensures IsStaff(session) && storeFails ==> r == Uncaught()
    ensures r.status == 200 <==> IsStaff(session) && !storeFails
    ensures r.status == 200 ==> r.payload.Data?
    ensures r.status == 200 ==> multiset(r.payload.value) == multiset(cms.categories)
    ensures r.status == 200 ==>
      forall i, j :: 0 <= i < j < |r.payload.value| ==> r.payload.value[i].sortOrder <= r.payload.value[j].sortOrder
  {
    if !IsStaff(session) then Unauthorized()
    else if storeFails then Uncaught()
    else
      var sorted := SortDesc(cms.categories, SortOrderKey());
      assert forall i, j :: 0 <= i < j < |sorted| ==> KeyLe(SortOrderKey()(sorted[j]), SortOrderKey()(sorted[i]));
      Reply(200, Data(sorted))
  }

  /** The fields `POST` reads from the body; a missing key or a `null` is
      `None`. */
  datatype CategoryBody = CategoryBody(name: Option<string>, slug: Option<string>, sortOrder: Option<int>)

  const CREATE_CATEGORY_FAILED: Reply<Category> := Reply(500, Failure("Failed to create category"))

  /** The slug derived from a name when none is given: lower-cased, each
      run of white space replaced by one `-`. Nothing is trimmed or
      stripped. */
  function NameSlug(name: string): (r: string)
    ensures |r| <= |name|
    ensures (r == []) <==> (name == [])
    ensures forall i :: 0 <= i < |r| ==> !IsSpace(r[i]) && !IsAsciiUpper(r[i])
    ensures forall i :: 0 <= i < |r| ==> r[i] == '-' || r[i] in ToLower(name)
    ensures |name| > 0 && IsSpace(name[0]) ==> r[0] == '-'
    ensures Untouched(r, Whitespace) == Untouched(ToLower(name), Whitespace)
  {
    var lowered := ToLower(name);
    var r := ReplaceRuns(lowered, Whitespace);
    assert forall i :: 0 <= i < |r| ==> r[i] == '-' || (!IsSpace(r[i]) && r[i] in lowered);
    ReplaceRunsKeepsUntouched(lowered, Whitespace);
    r
  }

  /** The fallback differs from `slugify`: a name that starts with white
      space gives a slug that starts with `-`, which `slugify` never
      produces. */
  lemma NameSlugKeepsEdges(name: string)
    requires |name| > 0 && IsSpace(name[0])
    ensures NameSlug(name)[0] == '-'
    ensures !IsSlug(NameSlug(name)) && IsSlug(Slugify(name))
  {
  }

  /** The slug stored: a truthy given slug verbatim, else the name's. */
  function CategorySlug(body: CategoryBody): (r: Option<string>)
    ensures Truthy(body.slug) ==> r == body.slug
    ensures !Truthy(body.slug) ==> (r.Some? <==> body.name.Some?)
    ensures !Truthy(body.slug) && body.name.Some? ==> r == Some(NameSlug(body.name.value))
  {
    if Truthy(body.slug) then body.slug
    else if body.name.None? then None
    else Some(NameSlug(body.name.value))
  }

  /** `sortOrder || 0`. */
  function SortOrderOf(v: Option<int>): (r: int)
    ensures v.Some? && v.value != 0 ==> r == v.value
    ensures v.None? || v == Some(0) ==> r == 0
  {
    if v.Some? && v.value != 0 then v.value else 0
  }

  /** `POST`: creates a category for a signed-in ADMIN or EDITOR. */
  function CreateCategory(session: Option<Session>, body: JsonBody<CategoryBody>, cms: Cms, newId: string,
                          storeFails: bool): (r: Handled<Cms, Category>)
    ensures !IsStaff(session) ==> r.reply == Unauthorized() && r.state == cms
    ensures r.reply.status == 201 || r.reply.status == 401 || r.reply == CREATE_CATEGORY_FAILED
    ensures r.reply.status != 201 ==> r.state == cms
    ensures body.Malformed? || storeFails ==> r.reply.status != 201
    ensures body.Parsed? && body.value.name.None? ==> r.reply.status != 201
    ensures r.reply.status == 201 ==>
      && body.Parsed? && body.value.name.Some? && r.reply.payload.Data?
      && var c := r.reply.payload.value;
      && r.state == cms.(categories := cms.categories + [c])
      && c.name == body.value.name.value
      && Some(c.slug) == CategorySlug(body.value)
      && c.sortOrder == SortOrderOf(body.value.sortOrder)
      && c.id == newId
      && !CategorySlugTaken(cms.categories, c.slug) && !CategoryIdTaken(cms.categories, c.id)
    ensures IsStaff(session) && body.Parsed? && body.value.name.Some? && !storeFails ==>
      (r.reply.status == 201 <==>
         !CategorySlugTaken(cms.categories, CategorySlug(body.value).value) && !CategoryIdTaken(cms.categories, newId))
    ensures Valid(cms) ==> Valid(r.state)
  {
    if !IsStaff(session) then Handled(Unauthorized(), cms)
    else if body.Malformed? || storeFails || body.value.name.None? then Handled(CREATE_CATEGORY_FAILED, cms)
    else
      var slug := CategorySlug(body.value).value;
      if CategorySlugTaken(cms.categories, slug) || CategoryIdTaken(cms.categories, newId) then
        Handled(CREATE_CATEGORY_FAILED, cms)
      else
        var c := Category(newId, body.value.name.value, slug, SortOrderOf(body.value.sortOrder));
        CategoryInsertKeepsValid(cms, c);
        Handled(Reply(201, Data(c)), cms.(categories := cms.categories + [c]))
  }

  /** A staff request with a name, whose slug and id are free, creates
      exactly the category built from the body. */
  lemma CreateCategorySucceeds(session: Option<Session>, body: CategoryBody, cms: Cms, newId: string)
    requires IsStaff(session) && body.name.Some?
    requires !CategorySlugTaken(cms.categories, CategorySlug(body).value) && !CategoryIdTaken(cms.categories, newId)
    ensures var c := Category(newId, body.name.value, CategorySlug(body).value, SortOrderOf(body.sortOrder));
      CreateCategory(session, Parsed(body), cms, newId, false) == Handled(Reply(201, Data(c)), cms.(categories := cms.categories + [c]))
  {
  }

  lemma CategoryInsertKeepsValid(cms: Cms, c: Category)
    requires !CategorySlugTaken(cms.categories, c.slug) && !CategoryIdTaken(cms.categories, c.id)
    ensures Valid(cms) ==> Valid(cms.(categories := cms.categories + [c]))
  {
    var categories := cms.categories + [c];
    assert forall i :: 0 <= i < |cms.categories| ==> categories[i] == cms.categories[i];
    forall i | 0 <= i < |cms.posts| && CategoryIdTaken(cms.categories, cms.posts[i].categoryId)
      ensures CategoryIdTaken(categories, cms.posts[i].categoryId)
    {
      var j :| 0 <= j < |cms.categories| && cms.categories[j].id == cms.posts[i].categoryId;
      assert categories[j] == cms.categories[j];
    }
  }
}

=== FILE: admin_posts_api.dfy ===
/** `src/app/api/admin/posts/route.ts`: listing posts for the admin and
    creating one, with the role gate, the unique slug rule and the
    defaults the handler fills in. */
module AdminPostsApi {
  import opened Base
  import opened Utils
  import opened Http
  import opened Listing
  import opened Content

  /** `orderBy: { createdAt: "desc" }`. */
  function CreatedAtKey(): Post -> SortKey {
    (p: Post) => SortKey(p.createdAt, 0)
  }

  /** `GET`: the staff see every post, newest first. The query is not
      guarded, so a store failure (`storeFails`) escapes the handler. */
  function ListPosts(session: Option<Session>, cms: Cms, storeFails: bool): (r: Reply<seq<Post>>)
    ensures !IsStaff(session) ==> r == Unauthorized()
    ensures IsStaff(session) && storeFails ==> r == Uncaught()
    ensures r.status == 200 <==> IsStaff(session) && !storeFails
    ensures r.status == 200 ==> r.payload.Data?
    ensures r.status == 200 ==> multiset(r.payload.value) == multiset(cms.posts)
    ensures r.status == 200 ==> SortedDesc(r.payload.value, CreatedAtKey())
  {
    if !IsStaff(session) then Unauthorized()
    else if storeFails then Uncaught()
    else Reply(200, Data(SortDesc(cms.posts, CreatedAtKey())))
  }

  // ---------------------------------------------------------------------
  // Slug rule
  // ---------------------------------------------------------------------

  /** The slug a new post gets: its title's slug, unless a post already
      has that one, in which case `-<now>` is appended. */
  function UniqueSlug(posts: seq<Post>, title: string, now: nat): (r: string)
    ensures r == Slugify(title) <==> !PostSlugTaken(posts, Slugify(title))
    ensures r != Slugify(title) ==> r == Slugify(title) + "-" + NatToString(now)
    ensures Slugify(title) != "" ==> IsSlug(r)
  {
    ResolveSlug(posts, Slugify(title), now)
  }

  /** The collision rule applied to a computed slug. */
  function ResolveSlug(posts: seq<Post>, slug: string, now: nat): (r: string)
    requires IsSlug(slug)
    ensures r == slug || r == slug + "-" + NatToString(now)
    ensures !PostSlugTaken(posts, slug) ==> r == slug
    ensures PostSlugTaken(posts, slug) ==> r != slug
    ensures slug != "" ==> IsSlug(r)
  {
    if PostSlugTaken(posts, slug) then
      SuffixKeepsSlug(slug, NatToString(now));
      slug + "-" + NatToString(now)
    else slug
  }

  /** Appending `-` and a run of digits to a non-empty slug gives a slug. */
  lemma SuffixKeepsSlug(slug: string, digits: string)
    requires IsSlug(slug)
    requires |digits| >= 1 && forall i :: 0 <= i < |digits| ==> IsDigit(digits[i])
    ensures slug != "" ==> IsSlug(slug + "-" + digits)
  {
    if slug != "" {
      var r := slug + "-" + digits;
      assert r[|r| - 1] == digits[|digits| - 1];
      forall i | 0 <= i < |r| - 1
        ensures !RunAt(Dash, r, i)
      {
        if i < |slug| - 1 {
          assert r[i] == slug[i] && r[i + 1] == slug[i + 1];
          assert !RunAt(Dash, slug, i);
        } else if i >= |slug| {
          assert r[i + 1] == digits[i - |slug|];
        }
      }
      forall i | 0 <= i < |r|
        ensures IsSlugChar(r[i])
      {
        if i < |slug| {
          assert r[i] == slug[i];
        } else if i > |slug| {
          assert r[i] == digits[i - |slug| - 1];
        }
      }
    }
  }

  /** When the slug is taken, what follows it reads back as the creation
      time. */
  lemma TakenSlugCarriesTimestamp(posts: seq<Post>, slug: string, now: nat)
    requires IsSlug(slug) && PostSlugTaken(posts, slug)
    ensures var r := ResolveSlug(posts, slug, now);
      && |r| > |slug|
      && r[..|slug|] == slug
      && r[|slug|] == '-'
      && var tail := r[|slug| + 1..];
         (forall i :: 0 <= i < |tail| ==> IsDigit(tail[i])) && DigitsValue(tail) == now
  {
    var r := ResolveSlug(posts, slug, now);
    assert r[|slug| + 1..] == NatToString(now);
    NatToStringRoundTrip(now);
  }

  // ---------------------------------------------------------------------
  // POST
  // ---------------------------------------------------------------------

  /** The fields `POST` reads from the body; a missing key or a `null` is
      `None`. */
  datatype PostBody = PostBody(
    title: Option<string>,
    externalUrl: Option<string>,
    summary: Option<string>,
    categoryId: Option<string>,
    imageUrl: Option<string>,
    labelText: Option<string>,
    isPremium: Option<bool>,
    isFeatured: Option<bool>,
    status: Option<string>,
    publishAt: Option<string>)

  const CREATE_FAILED: Reply<Post> := Reply(500, Failure("Failed to create post"))

  /** `publishAt` as stored: the parsed given date; otherwise the creation
      time for a post created PUBLISHED, else null. `None` when the given
      date does not parse (the store rejects an invalid date). */
  function PublishAtOf(body: PostBody, now: int, parseDate: string -> Option<int>): (r: Option<Option<int>>)
    ensures Truthy(body.publishAt) ==> (r.Some? <==> parseDate(body.publishAt.value).Some?)
    ensures Truthy(body.publishAt) && r.Some? ==> r.value == parseDate(body.publishAt.value)
    ensures !Truthy(body.publishAt) ==> r.Some?
    ensures !Truthy(body.publishAt) && body.status == Some("PUBLISHED") ==> r == Some(Some(now))
    ensures !Truthy(body.publishAt) && body.status != Some("PUBLISHED") ==> r == Some(None)
  {
    if Truthy(body.publishAt) then
      match parseDate(body.publishAt.value)
      case None => None
      case Some(t) => Some(Some(t))
    else if body.status == Some("PUBLISHED") then Some(Some(now))
    else Some(None)
  }

  /** The row `prisma.post.create` would insert, or `None` when the store
      rejects it: a missing required field, an unknown category, a status
      outside the enum, an invalid date, or a key already in use. */
  function NewPost(cms: Cms, authorId: string, body: PostBody, slug: string, now: nat, newId: string,
                   parseDate: string -> Option<int>): (r: Option<Post>)
    ensures r.Some? <==>
      && body.title.Some? && body.externalUrl.Some? && body.summary.Some? && body.categoryId.Some?
      && CategoryIdTaken(cms.categories, body.categoryId.value)
      && (Truthy(body.status) ==> body.status.value in {"DRAFT", "SCHEDULED", "PUBLISHED"})
      && (Truthy(body.publishAt) ==> parseDate(body.publishAt.value).Some?)
      && !PostSlugTaken(cms.posts, slug) && !PostIdTaken(cms.posts, newId)
    ensures r.Some? ==>
      var p := r.value;
      && p.id == newId && p.slug == slug && p.authorId == authorId && p.views == 0 && p.createdAt == now
      && p.title == body.title.value && p.externalUrl == body.externalUrl.value
      && p.summary == body.summary.value && p.categoryId == body.categoryId.value
      && (if Truthy(body.imageUrl) then p.imageUrl == body.imageUrl else p.imageUrl.None?)
      && (if Truthy(body.labelText) then p.labelText == body.labelText else p.labelText.None?)
      && (p.isPremium <==> body.isPremium == Some(true))
      && (p.isFeatured <==> body.isFeatured == Some(true))
      && PostStatusName(p.status) == (if Truthy(body.status) then body.status.value else "DRAFT")
      && p.publishAt == PublishAtOf(body, now, parseDate).value
  {
    var status := ParsePostStatus(OrElse(body.status, Some("DRAFT")).value);
    var publishAt := PublishAtOf(body, now, parseDate);
    if || body.title.None? || body.externalUrl.None? || body.summary.None? || body.categoryId.None?
       || !CategoryIdTaken(cms.categories, body.categoryId.value)
       || status.None? || publishAt.None?
       || PostSlugTaken(cms.posts, slug) || PostIdTaken(cms.posts, newId)
    then None
    else
      Some(Post(
        newId, body.title.value, slug, body.externalUrl.value, body.summary.value, body.categoryId.value,
        OrElse(body.imageUrl, None), OrElse(body.labelText, None),
        BoolOr(body.isPremium, false), BoolOr(body.isFeatured, false),
        status.value, publishAt.value, authorId, 0, now))
  }

  /** `POST`: creates a post for a signed-in ADMIN or EDITOR. `now` is
      `Date.now()`, `newId` the key the store generates, `parseDate` is
      `new Date(s)` and `storeFails` a store error. */
  function CreatePost(session: Option<Session>, body: JsonBody<PostBody>, cms: Cms, now: nat, newId: string,
                      parseDate: string -> Option<int>, storeFails: bool): (r: Handled<Cms, Post>)
    ensures !IsStaff(session) ==> r.reply == Unauthorized()
    ensures r.reply.status == 201 || r.reply.status == 401 || r.reply == CREATE_FAILED
    ensures r.reply.status != 201 ==> r.state == cms
    ensures r.reply.status == 201 ==> IsStaff(session) && r.reply.payload.Data? && body.Parsed? && body.value.title.Some?
    ensures r.reply.status == 201 ==>
      var p := r.reply.payload.value;
      && r.state == cms.(posts := cms.posts + [p])
      && p.authorId == session.value.userId
      && p.createdAt == now && p.views == 0
      && !PostSlugTaken(cms.posts, p.slug) && !PostIdTaken(cms.posts, p.id)
      && p.slug == UniqueSlug(cms.posts, body.value.title.value, now)
      && CategoryIdTaken(cms.categories, p.categoryId)
    ensures body.Malformed? || storeFails ==> r.reply.status != 201
    ensures body.Parsed? && body.value.title.None? ==> r.reply.status != 201
    ensures Valid(cms) ==> Valid(r.state)
  {
    if !IsStaff(session) then Handled(Unauthorized(), cms)
    else if body.Malformed? || body.value.title.None? || storeFails then Handled(CREATE_FAILED, cms)
    else
      var slug := UniqueSlug(cms.posts, body.value.title.value, now);
      match NewPost(cms, session.value.userId, body.value, slug, now, newId, parseDate)
      case None => Handled(CREATE_FAILED, cms)
      case Some(p) =>
        var next := cms.(posts := cms.posts + [p]);
        InsertKeepsValid(cms, p);
        Handled(Reply(201, Data(p)), next)
  }

  lemma InsertKeepsValid(cms: Cms, p: Post)
    requires !PostSlugTaken(cms.posts, p.slug) && !PostIdTaken(cms.posts, p.id)
    requires CategoryIdTaken(cms.categories, p.categoryId)
    ensures Valid(cms) ==> Valid(cms.(posts := cms.posts + [p]))
  {
    var posts := cms.posts + [p];
    assert forall i :: 0 <= i < |cms.posts| ==> posts[i] == cms.posts[i];
  }

  /** The row a successful `POST` inserts is the one built from the body. */
  lemma CreatedRow(session: Option<Session>, body: PostBody, cms: Cms, now: nat, newId: string,
                   parseDate: string -> Option<int>)
    requires CreatePost(session, Parsed(body), cms, now, newId, parseDate, false).reply.status == 201
    ensures session.Some? && body.title.Some?
    ensures var created := NewPost(cms, session.value.userId, body, UniqueSlug(cms.posts, body.title.value, now), now, newId, parseDate);
      created.Some? && CreatePost(session, Parsed(body), cms, now, newId, parseDate, false).reply.payload.value == created.value
  {
  }

  /** A staff request whose body the store accepts is created. */
  lemma CreateSucceeds(session: Option<Session>, body: PostBody, cms: Cms, now: nat, newId: string,
                       parseDate: string -> Option<int>)
    requires IsStaff(session) && body.title.Some?
    requires NewPost(cms, session.value.userId, body, UniqueSlug(cms.posts, body.title.value, now), now, newId, parseDate).Some?
    ensures CreatePost(session, Parsed(body), cms, now, newId, parseDate, false).reply
      == Reply(201, Data(NewPost(cms, session.value.userId, body, UniqueSlug(cms.posts, body.title.value, now), now, newId, parseDate).value))
  {
  }

  /** The defaults of a created post: falsy image and label become null,
      flags default to `false`, the status to DRAFT. */
  lemma CreatedPostDefaults(session: Option<Session>, body: PostBody, cms: Cms, now: nat, newId: string,
                            parseDate: string -> Option<int>)
    requires CreatePost(session, Parsed(body), cms, now, newId, parseDate, false).reply.status == 201
    ensures var p := CreatePost(session, Parsed(body), cms, now, newId, parseDate, false).reply.payload.value;
      && (Truthy(body.imageUrl) ==> p.imageUrl == body.imageUrl)
      && (!Truthy(body.imageUrl) ==> p.imageUrl.None?)
      && (Truthy(body.labelText) ==> p.labelText == body.labelText)
      && (!Truthy(body.labelText) ==> p.labelText.None?)
      && (p.isPremium <==> body.isPremium == Some(true))
      && (p.isFeatured <==> body.isFeatured == Some(true))
      && (!Truthy(body.status) ==> p.status == DRAFT)
      && (Truthy(body.status) ==> PostStatusName(p.status) == body.status.value)
      && p.title == body.title.value
  {
    CreatedRow(session, body, cms, now, newId, parseDate);
    var status := OrElse(body.status, Some("DRAFT")).value;
    assert ParsePostStatus(status).Some?;
  }

  /** A post created PUBLISHED without a date is visible at once. */
  lemma PublishedWithoutDateIsLive(session: Option<Session>, body: PostBody, cms: Cms, now: nat, newId: string,
                                   parseDate: string -> Option<int>)
    requires CreatePost(session, Parsed(body), cms, now, newId, parseDate, false).reply.status == 201
    requires body.status == Some("PUBLISHED") && !Truthy(body.publishAt)
    ensures var p := CreatePost(session, Parsed(body), cms, now, newId, parseDate, false).reply.payload.value;
      p.status == PUBLISHED && p.publishAt == Some(now) && Visible(p, now)
  {
    CreatedRow(session, body, cms, now, newId, parseDate);
  }

  /** A post created without a status or a date is an undated draft,
      hidden from every public listing. */
  lemma UndatedDraftIsHidden(session: Option<Session>, body: PostBody, cms: Cms, now: nat, newId: string,
                             parseDate: string -> Option<int>, later: int)
    requires CreatePost(session, Parsed(body), cms, now, newId, parseDate, false).reply.status == 201
    requires !Truthy(body.status) && !Truthy(body.publishAt)
    ensures var p := CreatePost(session, Parsed(body), cms, now, newId, parseDate, false).reply.payload.value;
      p.status == DRAFT && p.publishAt.None? && !Visible(p, later)
  {
    CreatedRow(session, body, cms, now, newId, parseDate);
  }
}

=== FILE: admin_sidebar.dfy ===
/** `src/components/admin/AdminSidebar.tsx`: which entry of the admin
    navigation is highlighted for the current path. */
module AdminSidebar {
  import opened Base

  datatype NavItem = NavItem(name: string, href: string)

  const DASHBOARD_HREF := "/admin"

  const NAV_ITEMS: seq<NavItem> := [
    NavItem("Dashboard", DASHBOARD_HREF),
    NavItem("Posts", "/admin/posts"),
    NavItem("Categories", "/admin/categories"),
    NavItem("Ads", "/admin/ads"),
    NavItem("Subscribers", "/admin/subscribers")
  ]

  /** An entry is highlighted on its own path and, except for the
      dashboard, on every path that starts with its `href`. */
  predicate IsActive(pathname: string, href: string) {
    pathname == href || (href != DASHBOARD_HREF && href <= pathname)
  }

  /** The dashboard entry is highlighted on `/admin` alone; any other entry
      on its own path and on every path below it. */
  lemma ActiveRule(pathname: string, href: string)
    ensures IsActive(href, href)
    ensures IsActive(pathname, DASHBOARD_HREF) <==> pathname == DASHBOARD_HREF
    ensures href != DASHBOARD_HREF ==> (IsActive(pathname, href) <==> href <= pathname)
  {
  }

  /** `/admin/posts/new`, the new-post form, highlights Posts and not the
      dashboard. */
  lemma NewPostFormHighlightsPosts()
    ensures IsActive("/admin/posts/new", NAV_ITEMS[1].href)
    ensures !IsActive("/admin/posts/new", NAV_ITEMS[0].href)
  {
    assert NAV_ITEMS[1].href <= "/admin/posts/new";
  }

  /** Two prefixes of one string: the shorter is a prefix of the longer. */
  lemma PrefixesAreNested(a: string, b: string, p: string)
    requires a <= p && b <= p && |a| <= |b|
    ensures a <= b
  {
    assert a == p[..|a|] && b == p[..|b|];
    assert b[..|a|] == p[..|a|];
  }

  /** Below the dashboard, no `href` of the navigation is a prefix of
      another one: they part at their eighth character. */
  lemma HrefsAreNotNested(i: nat, j: nat)
    requires 0 < i < |NAV_ITEMS| && 0 < j < |NAV_ITEMS| && i != j
    ensures !(NAV_ITEMS[i].href <= NAV_ITEMS[j].href)
  {
    var a, b := NAV_ITEMS[i].href, NAV_ITEMS[j].href;
    assert |a| > 7 && |b| > 7 && a[7] != b[7];
  }

  /** Two distinct entries are never highlighted together. */
  lemma NeverTwoActive(pathname: string, i: nat, j: nat)
    requires i < |NAV_ITEMS| && j < |NAV_ITEMS| && i != j
    requires IsActive(pathname, NAV_ITEMS[i].href)
    ensures !IsActive(pathname, NAV_ITEMS[j].href)
  {
    var a, b := NAV_ITEMS[i].href, NAV_ITEMS[j].href;
    // The dashboard is active on `/admin` alone, which is shorter than
    // every other `href`; below it, two active entries would be nested.
    if IsActive(pathname, b) && i != 0 && j != 0 {
      if |a| <= |b| {
        PrefixesAreNested(a, b, pathname);
        HrefsAreNotNested(i, j);
      } else {
        PrefixesAreNested(b, a, pathname);
        HrefsAreNotNested(j, i);
      }
    }
  }

  /** The index of the highlighted entry for `pathname`, if any. */
  function ActiveIndex(pathname: string): (r: Option<nat>)
    ensures r.Some? ==> r.value < |NAV_ITEMS| && IsActive(pathname, NAV_ITEMS[r.value].href)
    ensures r.None? ==> forall i :: 0 <= i < |NAV_ITEMS| ==> !IsActive(pathname, NAV_ITEMS[i].href)
  {
    if IsActive(pathname, NAV_ITEMS[0].href) then Some(0)
    else if IsActive(pathname, NAV_ITEMS[1].href) then Some(1)
    else if IsActive(pathname, NAV_ITEMS[2].href) then Some(2)
    else if IsActive(pathname, NAV_ITEMS[3].href) then Some(3)
    else if IsActive(pathname, NAV_ITEMS[4].href) then Some(4)
    else None
  }

  /** Whatever the path, at most one entry is highlighted, so the entry
      `ActiveIndex` names is the only one. */
  lemma ActiveIndexIsTheOnlyActive(pathname: string, i: nat)
    requires i < |NAV_ITEMS| && IsActive(pathname, NAV_ITEMS[i].href)
    ensures ActiveIndex(pathname) == Some(i)
    ensures forall k :: 0 <= k < |NAV_ITEMS| && k != i ==> !IsActive(pathname, NAV_ITEMS[k].href)
  {
    forall k | 0 <= k < |NAV_ITEMS| && k != i
      ensures !IsActive(pathname, NAV_ITEMS[k].href)
    {
      NeverTwoActive(pathname, i, k);
    }
  }
}

=== FILE: ads.dfy ===
/** `src/lib/ads.ts`: which ads are eligible for a slot at a given time,
    and the random choice of one or several of them. */
module Ads {
  import opened Base
  import Listing

  datatype Position = TOP_BANNER | SIDEBAR | INLINE

  function PositionName(p: Position): string {
    match p
    case TOP_BANNER => "TOP_BANNER"
    case SIDEBAR => "SIDEBAR"
    case INLINE => "INLINE"
  }

  /** The store's check of a position string against the enum. */
  function ParsePosition(s: string): (r: Option<Position>)
    ensures r.Some? <==> s == "TOP_BANNER" || s == "SIDEBAR" || s == "INLINE"
    ensures r.Some? ==> PositionName(r.value) == s
  {
    if s == "TOP_BANNER" then Some(TOP_BANNER)
    else if s == "SIDEBAR" then Some(SIDEBAR)
    else if s == "INLINE" then Some(INLINE)
    else None
  }

  lemma PositionRoundTrip(p: Position)
    ensures ParsePosition(PositionName(p)) == Some(p)
  {
  }

  datatype Ad = Ad(
    id: string,
    title: string,
    imageUrl: Option<string>,
    linkUrl: string,
    position: Position,
    activeFrom: Option<int>,
    activeTo: Option<int>,
    isActive: bool,
    createdAt: int)

  /** The `where` clause of `getActiveAds`, with its four alternatives as
      written in the query. */
  predicate MatchesActiveAdsQuery(ad: Ad, position: Position, now: int) {
    && ad.position == position
    && ad.isActive
    && (|| (AtOrBefore(ad.activeFrom, now) && AtOrAfter(ad.activeTo, now))
        || (ad.activeFrom.None? && ad.activeTo.None?)
        || (AtOrBefore(ad.activeFrom, now) && ad.activeTo.None?)
        || (ad.activeFrom.None? && AtOrAfter(ad.activeTo, now)))
  }

  /** Eligibility as the data model states it: each bound, when set, is
      inclusive, and an unset bound does not restrict. */
  predicate Eligible(ad: Ad, position: Position, now: int) {
    && ad.position == position
    && ad.isActive
    && (ad.activeFrom.None? || ad.activeFrom.value <= now)
    && (ad.activeTo.None? || ad.activeTo.value >= now)
  }

  /** The four-way disjunction of the query is the two-bound window. */
  lemma QueryIsWindow(ad: Ad, position: Position, now: int)
    ensures MatchesActiveAdsQuery(ad, position, now) <==> Eligible(ad, position, now)
  {
  }

  /** Both bounds are inclusive; an ad whose window has closed or not yet
      opened is never shown. */
  lemma WindowBounds(ad: Ad, now: int)
    ensures ad.isActive && ad.activeFrom == Some(now) && ad.activeTo == Some(now) ==>
      MatchesActiveAdsQuery(ad, ad.position, now)
    ensures ad.isActive && ad.activeFrom.None? && ad.activeTo.None? ==>
      MatchesActiveAdsQuery(ad, ad.position, now)
    ensures ad.activeTo.Some? && ad.activeTo.value < now ==> !MatchesActiveAdsQuery(ad, ad.position, now)
    ensures ad.activeFrom.Some? && ad.activeFrom.value > now ==> !MatchesActiveAdsQuery(ad, ad.position, now)
    ensures !ad.isActive ==> !MatchesActiveAdsQuery(ad, ad.position, now)
  {
  }

  /** `getActiveAds(position)` at `now`, over the stored ads in the order
      the store returns them. */
  function GetActiveAds(ads: seq<Ad>, position: Position, now: int): (r: seq<Ad>)
    ensures forall i :: 0 <= i < |r| ==> Eligible(r[i], position, now)
    ensures forall a :: multiset(r)[a] == if Eligible(a, position, now) then multiset(ads)[a] else 0
    ensures |r| <= |ads|
  {
    if ads == [] then []
    else
      var rest := GetActiveAds(ads[1..], position, now);
      assert ads == [ads[0]] + ads[1..];
      assert MatchesActiveAdsQuery(ads[0], position, now) <==> Eligible(ads[0], position, now);
      if MatchesActiveAdsQuery(ads[0], position, now) then [ads[0]] + rest else rest
  }

  /** An ad is returned exactly when it is stored and eligible. */
  lemma ActiveAdsAreTheEligibleOnes(ads: seq<Ad>, position: Position, now: int, a: Ad)
    ensures a in GetActiveAds(ads, position, now) <==> a in ads && Eligible(a, position, now)
  {
    var r := GetActiveAds(ads, position, now);
    assert a in r <==> multiset(r)[a] > 0;
    assert a in ads <==> multiset(ads)[a] > 0;
  }

  /** `Math.floor(random * len)`: for `random` in `[0, 1)` it is an index
      into a sequence of length `len`. */
  function ScaledIndex(random: real, len: nat): (k: nat)
    requires 0.0 <= random < 1.0 && len > 0
    ensures k < len
    ensures k as real <= random * len as real < k as real + 1.0
  {
    assert random * len as real < len as real by {
      assert (1.0 - random) * len as real > 0.0;
    }
    (random * len as real).Floor
  }

  /** `getRandomAd(position)` at `now`, where `random` is the value
      `Math.random()` returned. */
  function GetRandomAd(ads: seq<Ad>, position: Position, now: int, random: real): (r: Option<Ad>)
    requires 0.0 <= random < 1.0
    ensures r.None? <==> GetActiveAds(ads, position, now) == []
    ensures r.Some? ==> r.value in GetActiveAds(ads, position, now)
    ensures r.Some? ==> r.value in ads && Eligible(r.value, position, now)
  {
    var eligible := GetActiveAds(ads, position, now);
    if |eligible| == 0 then None
    else
      var randomIndex := ScaledIndex(random, |eligible|);
      ActiveAdsAreTheEligibleOnes(ads, position, now, eligible[randomIndex]);
      Some(eligible[randomIndex])
  }

  /** Every eligible ad is the pick for some value of `Math.random()`:
      the `k`-th one for `random = k / len`. */
  lemma EveryEligibleAdCanBePicked(ads: seq<Ad>, position: Position, now: int, k: nat)
    requires k < |GetActiveAds(ads, position, now)|
    ensures var eligible := GetActiveAds(ads, position, now);
      var random := k as real / |eligible| as real;
      && 0.0 <= random < 1.0
      && GetRandomAd(ads, position, now, random) == Some(eligible[k])
  {
    var eligible := GetActiveAds(ads, position, now);
    ExactFraction(k, |eligible|);
  }

  /** `k / n` scales back to index `k`. */
  lemma ExactFraction(k: nat, n: nat)
    requires k < n
    ensures var random := k as real / n as real;
      0.0 <= random < 1.0 && ScaledIndex(random, n) == k
  {
    var len := n as real;
    var random := k as real / len;
    assert random * len == k as real;
    assert random < 1.0 by {
      assert random * len < 1.0 * len;
    }
  }

  /** `getRandomAds(position, count)` at `now`: a shuffle of the eligible
      ads cut to `Math.min(count, len)` entries. The shuffle is chosen
      nondeterministically among all permutations. */
  method GetRandomAds(ads: seq<Ad>, position: Position, now: int, count: int) returns (r: seq<Ad>)
    ensures GetActiveAds(ads, position, now) == [] ==> r == []
    ensures count >= 0 ==> |r| == Min(count, |GetActiveAds(ads, position, now)|)
    ensures multiset(r) <= multiset(GetActiveAds(ads, position, now))
    ensures forall i :: 0 <= i < |r| ==> r[i] in ads && Eligible(r[i], position, now)
  {
    var eligible := GetActiveAds(ads, position, now);
    if |eligible| == 0 {
      return [];
    }
    assert multiset(eligible) == multiset(eligible);
    var shuffled :| multiset(shuffled) == multiset(eligible);
    assert |shuffled| == |multiset(shuffled)| == |eligible|;
    var end := SliceEnd(|shuffled|, Min(count, |eligible|));
    r := shuffled[..end];
    Listing.PrefixIsSubMultiset(shuffled, end);
    forall i | 0 <= i < |r|
      ensures r[i] in ads && Eligible(r[i], position, now)
    {
      assert r[i] in multiset(eligible);
      ActiveAdsAreTheEligibleOnes(ads, position, now, r[i]);
    }
  }
}

=== FILE: base.dfy ===
/** Shared vocabulary: optional values, JavaScript truthiness of strings,
    the white-space class of JavaScript regular expressions, ASCII case
    mapping and decimal rendering of counters and timestamps. */
module Base {

  /** A value that may be absent (`null` / `undefined` in the source). */
  datatype Option<+T> = None | Some(value: T) {
    function GetOr(default: T): T {
      match this
      case Some(v) => v
      case None => default
    }
  }

  /** One field of a partial update: `Keep` is a field left out of the
      update object (the store keeps its value), `Put(v)` overwrites it. */
  datatype Patch<+T> = Keep | Put(value: T)

  /** JavaScript truthiness of a possibly missing string: a missing value,
      `null` and `""` are falsy, every other string is truthy. */
  predicate Truthy(s: Option<string>) {
    s.Some? && s.value != ""
  }

  /** `a || b` on a possibly missing string. */
  function OrElse(s: Option<string>, fallback: Option<string>): (r: Option<string>)
    ensures Truthy(s) ==> r == s
    ensures !Truthy(s) ==> r == fallback
  {
    if Truthy(s) then s else fallback
  }

  /** `a || b` on a possibly missing boolean. */
  function BoolOr(b: Option<bool>, fallback: bool): (r: bool)
    ensures r <==> (b == Some(true) || fallback)
  {
    (b.Some? && b.value) || fallback
  }

  /** `a ?? b` on a possibly missing boolean: only a missing value takes
      the fallback. */
  function BoolNullish(b: Option<bool>, fallback: bool): (r: bool)
    ensures b.Some? ==> r == b.value
    ensures b.None? ==> r == fallback
  {
    b.GetOr(fallback)
  }

  /** With a `false` fallback `||` and `??` agree on booleans; with a
      `true` fallback they part ways on an explicit `false`. */
  lemma BoolDefaults(b: Option<bool>)
    ensures BoolOr(b, false) == BoolNullish(b, false)
    ensures BoolOr(b, true)
    ensures BoolNullish(b, true) <==> b != Some(false)
  {
  }

  /** `{ lte: t }` on a nullable timestamp column: a null never satisfies
      the comparison. */
  predicate AtOrBefore(v: Option<int>, t: int) { v.Some? && v.value <= t }

  /** `{ gte: t }` on a nullable timestamp column. */
  predicate AtOrAfter(v: Option<int>, t: int) { v.Some? && v.value >= t }

  /** The characters matched by `\s` in a JavaScript regular expression and
      removed by `String.prototype.trim`. */
  predicate IsSpace(c: char) {
    var n := c as int;
    (9 <= n <= 13) || n == 32 || n == 0xA0 || n == 0x1680
    || (0x2000 <= n <= 0x200A) || n == 0x2028 || n == 0x2029
    || n == 0x202F || n == 0x205F || n == 0x3000 || n == 0xFEFF
  }

  predicate IsAsciiUpper(c: char) { 'A' <= c <= 'Z' }

  predicate IsAsciiLower(c: char) { 'a' <= c <= 'z' }

  predicate IsDigit(c: char) { '0' <= c <= '9' }

  /** The characters matched by `\w` (without the `u` flag). */
  predicate IsWordChar(c: char) {
    IsAsciiUpper(c) || IsAsciiLower(c) || IsDigit(c) || c == '_'
  }

  function ToLowerChar(c: char): (r: char)
    ensures !IsAsciiUpper(r)
    ensures IsAsciiUpper(c) ==> IsAsciiLower(r)
    ensures !IsAsciiUpper(c) ==> r == c
  {
    if IsAsciiUpper(c) then (c as int + 32) as char else c
  }

  /** `String.prototype.toLowerCase`, restricted to the ASCII letters. */
  function ToLower(s: string): (r: string)
    ensures |r| == |s|
    ensures forall i :: 0 <= i < |s| ==> r[i] == ToLowerChar(s[i])
  {
    seq(|s|, i requires 0 <= i < |s| => ToLowerChar(s[i]))
  }

  lemma ToLowerOfLower(s: string)
    requires forall i :: 0 <= i < |s| ==> !IsAsciiUpper(s[i])
    ensures ToLower(s) == s
  {
  }

  function DigitChar(d: nat): (r: char)
    requires d < 10
    ensures IsDigit(r)
    ensures r as int - '0' as int == d
  {
    (d + '0' as int) as char
  }

  /** Decimal rendering of a non-negative integer, as template literals and
      `String(n)` produce it. */
  function NatToString(n: nat): (r: string)
    ensures |r| >= 1
    ensures forall i :: 0 <= i < |r| ==> IsDigit(r[i])
    ensures (r[0] == '0') <==> (n == 0)
    decreases n
  {
    if n < 10 then [DigitChar(n)] else NatToString(n / 10) + [DigitChar(n % 10)]
  }

  /** Reads back a string of decimal digits. */
  function DigitsValue(s: string): nat
    requires forall i :: 0 <= i < |s| ==> IsDigit(s[i])
  {
    if s == [] then 0
    else
      var last := s[|s| - 1];
      assert IsDigit(last);
      DigitsValue(s[..|s| - 1]) * 10 + (last as int - '0' as int)
  }

  lemma {:induction false} NatToStringRoundTrip(n: nat)
    ensures DigitsValue(NatToString(n)) == n
    decreases n
  {
    if n >= 10 {
      NatToStringRoundTrip(n / 10);
      var r := NatToString(n);
      assert r[..|r| - 1] == NatToString(n / 10);
    }
  }

  /** The end index `text.slice(0, end)` uses: a negative end counts from
      the back, and the index is clamped to `[0, len]`. */
  function SliceEnd(len: nat, end: int): (r: nat)
    ensures r <= len
    ensures 0 <= end <= len ==> r == end
  {
    if end < 0 then (if len + end < 0 then 0 else len + end)
    else if end > len then len
    else end
  }

  /** `Math.min` on integers. */
  function Min(a: int, b: int): (r: int)
    ensures r <= a && r <= b && (r == a || r == b)
  {
    if a <= b then a else b
  }
}

=== FILE: checkout_api.dfy ===
/** `src/app/api/stripe/checkout/route.ts`: sending a signed-in reader to
    the billing portal or to a new checkout session. */
module CheckoutApi {
  import opened Base
  import opened Http
  import Membership

  /** Where the returned URL leads; the URL itself comes from the billing
      provider. */
  datatype Redirect = BillingPortal(customerId: string) | NewCheckout(userId: string, email: string)

  const CHECKOUT_FAILED: Reply<Redirect> := Reply(500, Failure("Failed to create checkout session"))

  /** The stored customer id of a user, if any. */
  function StoredCustomer(t: Membership.Table, userId: string): Option<string> {
    if userId in t.rows then t.rows[userId].stripeCustomerId else None
  }

  /** `POST`: `action` is the body's `action` field; `billingConfigured`
      says whether the provider client exists, `storeFails` and
      `providerFails` stand for a throwing store or provider call. */
  function StartCheckout(session: Option<Session>, action: JsonBody<Option<string>>, t: Membership.Table,
                         billingConfigured: bool, storeFails: bool, providerFails: bool): (r: Reply<Redirect>)
    ensures session.None? || session.value.userId == "" ==> r == Unauthorized()
    ensures r.status == 200 || r.status == 401 || r == CHECKOUT_FAILED
    ensures !billingConfigured || storeFails || providerFails || action.Malformed? ==> r.status != 200
    ensures r.status == 200 ==> r.payload.Data? && session.Some? && action.Parsed?
    ensures r.status == 200 ==>
      var userId := session.value.userId;
      (r.payload.value.BillingPortal? <==>
         action.value == Some("portal") && Truthy(StoredCustomer(t, userId)))
    ensures r.status == 200 && r.payload.value.BillingPortal? ==>
      && Some(r.payload.value.customerId) == StoredCustomer(t, session.value.userId)
      && r.payload.value.customerId != ""
    ensures r.status == 200 && r.payload.value.NewCheckout? ==>
      r.payload.value == NewCheckout(session.value.userId, session.value.email)
    ensures session.Some? && session.value.userId != "" && action.Parsed? ==>
      (r.status == 200 <==> billingConfigured && !storeFails && !providerFails)
  {
    if session.None? || session.value.userId == "" then Unauthorized()
    else if action.Malformed? || storeFails then CHECKOUT_FAILED
    else
      var customer := StoredCustomer(t, session.value.userId);
      if !billingConfigured || providerFails then CHECKOUT_FAILED
      else if action.value == Some("portal") && Truthy(customer) then Reply(200, Data(BillingPortal(customer.value)))
      else Reply(200, Data(NewCheckout(session.value.userId, session.value.email)))
  }

  /** Asking for the portal without a stored customer id starts a new
      checkout; any other action does too. */
  lemma PortalNeedsStoredCustomer(s: Session, action: Option<string>, t: Membership.Table)
    requires s.userId != ""
    requires action != Some("portal") || !Truthy(StoredCustomer(t, s.userId))
    ensures StartCheckout(Some(s), Parsed(action), t, true, false, false) == Reply(200, Data(NewCheckout(s.userId, s.email)))
  {
  }

  /** A signed-in reader who asks for the portal and has a stored customer
      id is sent to that customer's portal. */
  lemma PortalForStoredCustomer(s: Session, t: Membership.Table)
    requires s.userId != "" && Truthy(StoredCustomer(t, s.userId))
    ensures StartCheckout(Some(s), Parsed(Some("portal")), t, true, false, false)
      == Reply(200, Data(BillingPortal(StoredCustomer(t, s.userId).value)))
  {
  }
}

=== FILE: content.dfy ===
/** The content store: posts and their categories, and the visibility
    rule every public listing applies. */
module Content {
  import opened Base

  datatype PostStatus = DRAFT | SCHEDULED | PUBLISHED

  function PostStatusName(s: PostStatus): string {
    match s
    case DRAFT => "DRAFT"
    case SCHEDULED => "SCHEDULED"
    case PUBLISHED => "PUBLISHED"
  }

  /** The store's check of a status string against the enum. */
  function ParsePostStatus(s: string): (r: Option<PostStatus>)
    ensures r.Some? <==> s == "DRAFT" || s == "SCHEDULED" || s == "PUBLISHED"
    ensures r.Some? ==> PostStatusName(r.value) == s
  {
    if s == "DRAFT" then Some(DRAFT)
    else if s == "SCHEDULED" then Some(SCHEDULED)
    else if s == "PUBLISHED" then Some(PUBLISHED)
    else None
  }

  lemma PostStatusRoundTrip(s: PostStatus)
    ensures ParsePostStatus(PostStatusName(s)) == Some(s)
  {
  }

  datatype Category = Category(id: string, name: string, slug: string, sortOrder: int)

  datatype Post = Post(
    id: string,
    title: string,
    slug: string,
    externalUrl: string,
    summary: string,
    categoryId: string,
    imageUrl: Option<string>,
    labelText: Option<string>, // the `label` column (`label` is a Dafny keyword)
    isPremium: bool,
    isFeatured: bool,
    status: PostStatus,
    publishAt: Option<int>,
    authorId: string,
    views: nat,
    createdAt: int)

  /** Posts and categories in the order the store returns them when no
      `orderBy` is given. */
  datatype Cms = Cms(posts: seq<Post>, categories: seq<Category>)

  predicate PostIdTaken(posts: seq<Post>, id: string) {
    exists i :: 0 <= i < |posts| && posts[i].id == id
  }

  predicate PostSlugTaken(posts: seq<Post>, slug: string) {
    exists i :: 0 <= i < |posts| && posts[i].slug == slug
  }

  predicate CategoryIdTaken(categories: seq<Category>, id: string) {
    exists i :: 0 <= i < |categories| && categories[i].id == id
  }

  predicate CategorySlugTaken(categories: seq<Category>, slug: string) {
    exists i :: 0 <= i < |categories| && categories[i].slug == slug
  }

  /** The unique keys of the store: post id and slug, category id and
      slug; and every post's category exists. */
  predicate Valid(cms: Cms) {
    && (forall i, j :: 0 <= i < j < |cms.posts| ==>
          cms.posts[i].id != cms.posts[j].id && cms.posts[i].slug != cms.posts[j].slug)
    && (forall i, j :: 0 <= i < j < |cms.categories| ==>
          cms.categories[i].id != cms.categories[j].id && cms.categories[i].slug != cms.categories[j].slug)
    && (forall i :: 0 <= i < |cms.posts| ==> CategoryIdTaken(cms.categories, cms.posts[i].categoryId))
  }

  /** The `where` clause every public query repeats: published, and an
      `OR` of a past-or-present `publishAt` and a null one. */
  predicate PublicWhere(p: Post, now: int) {
    p.status == PUBLISHED && (AtOrBefore(p.publishAt, now) || p.publishAt.None?)
  }

  /** A post is publicly visible when it is published and its publication
      time, if set, has come. */
  predicate Visible(p: Post, now: int) {
    p.status == PUBLISHED && (p.publishAt.None? || p.publishAt.value <= now)
  }

  /** The query's `OR` is the visibility rule, and a visible post stays
      visible: a draft or scheduled post never is, and a published one is
      from its `publishAt` on. */
  lemma PublicWhereIsVisibility(p: Post, now: int, later: int)
    ensures PublicWhere(p, now) <==> Visible(p, now)
    ensures p.status != PUBLISHED ==> !Visible(p, now)
    ensures Visible(p, now) && now <= later ==> Visible(p, later)
    ensures p.status == PUBLISHED && p.publishAt == Some(now) ==> Visible(p, now)
    ensures p.publishAt.Some? && now < p.publishAt.value ==> !Visible(p, now)
  {
  }

  /** `category: { slug }` on a post: its category has that slug. */
  predicate InCategory(categories: seq<Category>, p: Post, slug: string) {
    exists i :: 0 <= i < |categories| && categories[i].id == p.categoryId && categories[i].slug == slug
  }
}

=== FILE: home_page.dfy ===
/** `src/app/page.tsx`: the four query helpers of the home page and the
    way the page composes their results with the ad picks. */
module HomePage {
  import opened Base
  import opened Listing
  import opened Content
  import Ads

  /** The query helpers. One whose store call throws (or that finds no
      store) yields its empty result: `null` or `[]`. */
  datatype Query = FeaturedQuery | LatestQuery | TrendingQuery | CategoryQuery(slug: string)

  /** `orderBy: { publishAt: "desc" }`. Where a descending sort puts null
      timestamps is decided by the database, hence `nullsFirst`. */
  function PublishAtKey(nullsFirst: bool): Post -> SortKey {
    (p: Post) => if p.publishAt.Some? then SortKey(0, p.publishAt.value) else SortKey(if nullsFirst then 1 else -1, 0)
  }

  /** `orderBy: { views: "desc" }`. */
  function ViewsKey(): Post -> SortKey {
    (p: Post) => SortKey(p.views, 0)
  }

  /** Between two posts with a publication time, the key orders by that
      time; a post without one sorts above or below every dated post. */
  lemma PublishAtKeyOrder(nullsFirst: bool, p: Post, q: Post)
    ensures p.publishAt.Some? && q.publishAt.Some? ==>
      (KeyLe(PublishAtKey(nullsFirst)(p), PublishAtKey(nullsFirst)(q)) <==> p.publishAt.value <= q.publishAt.value)
    ensures nullsFirst && p.publishAt.Some? && q.publishAt.None? ==>
      !KeyLe(PublishAtKey(nullsFirst)(q), PublishAtKey(nullsFirst)(p))
    ensures !nullsFirst && p.publishAt.Some? && q.publishAt.None? ==>
      !KeyLe(PublishAtKey(nullsFirst)(p), PublishAtKey(nullsFirst)(q))
  {
  }

  // ---------------------------------------------------------------------
  // getFeaturedPost
  // ---------------------------------------------------------------------

  function FeaturedWhere(now: int): Post -> bool {
    (p: Post) => PublicWhere(p, now) && p.isFeatured
  }

  function GetFeaturedPost(cms: Cms, now: int, nullsFirst: bool, fails: bool): (r: Option<Post>)
    ensures fails ==> r.None?
    ensures r.Some? ==> r.value in cms.posts && Visible(r.value, now) && r.value.isFeatured
    ensures !fails && r.None? ==> forall i :: 0 <= i < |cms.posts| ==> !(Visible(cms.posts[i], now) && cms.posts[i].isFeatured)
  {
    if fails then None
    else
      var r := FindFirst(cms.posts, FeaturedWhere(now), PublishAtKey(nullsFirst));
      assert forall p :: FeaturedWhere(now)(p) <==> Visible(p, now) && p.isFeatured;
      r
  }

  /** The featured post is missing only when the query failed or no
      visible featured post exists; otherwise no visible featured post
      ranks above it by publication time. */
  lemma FeaturedIsNewestFeatured(cms: Cms, now: int, nullsFirst: bool, p: Post)
    requires p in cms.posts && Visible(p, now) && p.isFeatured
    ensures GetFeaturedPost(cms, now, nullsFirst, false).Some?
    ensures KeyLe(PublishAtKey(nullsFirst)(p), PublishAtKey(nullsFirst)(GetFeaturedPost(cms, now, nullsFirst, false).value))
  {
    PublicWhereIsVisibility(p, now, now);
    FindFirstIsGreatest(cms.posts, FeaturedWhere(now), PublishAtKey(nullsFirst), p);
  }

  // ---------------------------------------------------------------------
  // getLatestPosts, getTrendingPosts, getPostsByCategory
  // ---------------------------------------------------------------------

  function LatestWhere(now: int, excludeId: Option<string>): Post -> bool {
    (p: Post) => PublicWhere(p, now) && (!Truthy(excludeId) || p.id != excludeId.value)
  }

  function GetLatestPosts(cms: Cms, now: int, excludeId: Option<string>, nullsFirst: bool, fails: bool): (r: seq<Post>)
    ensures fails ==> r == []
    ensures !fails ==> |r| == Min(10, |Filter(cms.posts, LatestWhere(now, excludeId))|)
    ensures SortedDesc(r, PublishAtKey(nullsFirst))
    ensures forall i :: 0 <= i < |r| ==> r[i] in cms.posts && Visible(r[i], now)
    ensures Truthy(excludeId) ==> forall i :: 0 <= i < |r| ==> r[i].id != excludeId.value
    ensures !fails && |r| < 10 ==>
      forall i :: (0 <= i < |cms.posts| && Visible(cms.posts[i], now)
                   && (!Truthy(excludeId) || cms.posts[i].id != excludeId.value)) ==> cms.posts[i] in r
  {
    if fails then []
    else
      var r := FindMany(cms.posts, LatestWhere(now, excludeId), PublishAtKey(nullsFirst), 10);
      assert forall p :: LatestWhere(now, excludeId)(p) <==> Visible(p, now) && (!Truthy(excludeId) || p.id != excludeId.value);
      r
  }

  /** A visible post the latest list leaves out is no newer than any post
      it shows. */
  lemma LatestAreNewest(cms: Cms, now: int, nullsFirst: bool, p: Post, i: nat)
    requires p in cms.posts && Visible(p, now)
    requires i < |GetLatestPosts(cms, now, None, nullsFirst, false)|
    requires p !in GetLatestPosts(cms, now, None, nullsFirst, false)
    ensures KeyLe(PublishAtKey(nullsFirst)(p), PublishAtKey(nullsFirst)(GetLatestPosts(cms, now, None, nullsFirst, false)[i]))
  {
    PublicWhereIsVisibility(p, now, now);
    FindManyTakesTheTop(cms.posts, LatestWhere(now, None), PublishAtKey(nullsFirst), 10, i, p);
  }

  function TrendingWhere(now: int): Post -> bool {
    (p: Post) => PublicWhere(p, now)
  }

  function GetTrendingPosts(cms: Cms, now: int, fails: bool): (r: seq<Post>)
    ensures fails ==> r == []
    ensures !fails ==> |r| == Min(5, |Filter(cms.posts, TrendingWhere(now))|)
    ensures forall i, j :: 0 <= i < j < |r| ==> r[j].views <= r[i].views
    ensures forall i :: 0 <= i < |r| ==> r[i] in cms.posts && Visible(r[i], now)
    ensures !fails && |r| < 5 ==> forall i :: 0 <= i < |cms.posts| && Visible(cms.posts[i], now) ==> cms.posts[i] in r
  {
    if fails then []
    else
      var r := FindMany(cms.posts, TrendingWhere(now), ViewsKey(), 5);
      assert forall i, j :: 0 <= i < j < |r| ==> KeyLe(ViewsKey()(r[j]), ViewsKey()(r[i]));
      assert forall p :: TrendingWhere(now)(p) <==> Visible(p, now);
      r
  }

  /** No visible post left out of the trending list has more views than
      one shown. */
  lemma TrendingAreMostViewed(cms: Cms, now: int, p: Post, i: nat)
    requires p in cms.posts && Visible(p, now)
    requires i < |GetTrendingPosts(cms, now, false)|
    requires p !in GetTrendingPosts(cms, now, false)
    ensures p.views <= GetTrendingPosts(cms, now, false)[i].views
  {
    PublicWhereIsVisibility(p, now, now);
    FindManyTakesTheTop(cms.posts, TrendingWhere(now), ViewsKey(), 5, i, p);
  }

  function CategoryWhere(cms: Cms, now: int, slug: string): Post -> bool {
    (p: Post) => PublicWhere(p, now) && InCategory(cms.categories, p, slug)
  }

  function GetPostsByCategory(cms: Cms, now: int, slug: string, limit: nat, nullsFirst: bool, fails: bool): (r: seq<Post>)
    ensures fails ==> r == []
    ensures !fails ==> |r| == Min(limit, |Filter(cms.posts, CategoryWhere(cms, now, slug))|)
    ensures SortedDesc(r, PublishAtKey(nullsFirst))
    ensures forall i :: 0 <= i < |r| ==> r[i] in cms.posts && Visible(r[i], now) && InCategory(cms.categories, r[i], slug)
    ensures !fails && |r| < limit ==>
      forall i :: (0 <= i < |cms.posts| && Visible(cms.posts[i], now)
                   && InCategory(cms.categories, cms.posts[i], slug)) ==> cms.posts[i] in r
  {
    if fails then []
    else
      var r := FindMany(cms.posts, CategoryWhere(cms, now, slug), PublishAtKey(nullsFirst), limit);
      assert forall p :: CategoryWhere(cms, now, slug)(p) <==> Visible(p, now) && InCategory(cms.categories, p, slug);
      r
  }

  /** A visible post of the category that its block leaves out is no newer
      than any post the block shows. */
  lemma CategoryBlockIsNewest(cms: Cms, now: int, slug: string, limit: nat, nullsFirst: bool, p: Post, i: nat)
    requires p in cms.posts && Visible(p, now) && InCategory(cms.categories, p, slug)
    requires i < |GetPostsByCategory(cms, now, slug, limit, nullsFirst, false)|
    requires p !in GetPostsByCategory(cms, now, slug, limit, nullsFirst, false)
    ensures KeyLe(PublishAtKey(nullsFirst)(p), PublishAtKey(nullsFirst)(GetPostsByCategory(cms, now, slug, limit, nullsFirst, false)[i]))
  {
    PublicWhereIsVisibility(p, now, now);
    FindManyTakesTheTop(cms.posts, CategoryWhere(cms, now, slug), PublishAtKey(nullsFirst), limit, i, p);
  }

  // ---------------------------------------------------------------------
  // HomePage
  // ---------------------------------------------------------------------

  /** The values `Math.random()` returned for the four ad slots. */
  datatype Draws = Draws(topBanner: real, sidebar1: real, sidebar2: real, inline: real)

  predicate ValidDraws(d: Draws) {
    && 0.0 <= d.topBanner < 1.0 && 0.0 <= d.sidebar1 < 1.0
    && 0.0 <= d.sidebar2 < 1.0 && 0.0 <= d.inline < 1.0
  }

  /** A category block: its heading, the category slug its heading links
      to (`/category/<slug>`) and its posts. */
  datatype Section = Section(title: string, slug: string, posts: seq<Post>)

  /** A category the page offers a block for. */
  datatype SectionSpec = SectionSpec(title: string, slug: string)

  /** The page's three category blocks, in the order it renders them. */
  const HOME_CATEGORIES: seq<SectionSpec> :=
    [SectionSpec("Politics", "politics"), SectionSpec("Business", "business"), SectionSpec("Technology", "technology")]

  /** What the page renders. An absent ad slot is not rendered. */
  datatype HomeView = HomeView(
    topBanner: Option<Ads.Ad>,
    featured: Option<Post>,
    latest: seq<Post>,
    inlineAd: Option<Ads.Ad>,
    sections: seq<Section>,
    trending: seq<Post>,
    sidebarAds: seq<Ads.Ad>)

  const SECTION_LIMIT: nat := 4
  const LATEST_SHOWN: nat := 5

  /** `getPostsByCategory(slug, 4)` as the page calls it. */
  function CategoryPosts(cms: Cms, now: int, nullsFirst: bool, failing: set<Query>, slug: string): seq<Post> {
    GetPostsByCategory(cms, now, slug, SECTION_LIMIT, nullsFirst, CategoryQuery(slug) in failing)
  }

  /** A rendered category block: never empty, and at most `SECTION_LIMIT`
      visible posts, all of the block's own category. */
  predicate SectionShows(cms: Cms, now: int, s: Section) {
    && 0 < |s.posts| <= SECTION_LIMIT
    && forall i :: 0 <= i < |s.posts| ==>
         s.posts[i] in cms.posts && Visible(s.posts[i], now) && InCategory(cms.categories, s.posts[i], s.slug)
  }

  /** The block of one category, present only when its query found posts. */
  function CategorySection(cms: Cms, now: int, nullsFirst: bool, failing: set<Query>, spec: SectionSpec): (r: seq<Section>)
    ensures |r| <= 1
    ensures r == [] <==> CategoryPosts(cms, now, nullsFirst, failing, spec.slug) == []
    ensures forall k :: 0 <= k < |r| ==>
      && SectionShows(cms, now, r[k])
      && r[k].title == spec.title && r[k].slug == spec.slug
      && r[k].posts == CategoryPosts(cms, now, nullsFirst, failing, spec.slug)
  {
    var posts := CategoryPosts(cms, now, nullsFirst, failing, spec.slug);
    if |posts| > 0 then
      var section := Section(spec.title, spec.slug, posts);
      assert SectionShows(cms, now, section) by {
        assert forall i :: 0 <= i < |posts| ==>
          posts[i] in cms.posts && Visible(posts[i], now) && InCategory(cms.categories, posts[i], spec.slug);
      }
      [section]
    else []
  }

  /** `specs` has a rendered block among `r`. */
  predicate HasSection(r: seq<Section>, spec: SectionSpec) {
    exists k :: 0 <= k < |r| && r[k].title == spec.title && r[k].slug == spec.slug
  }

  /** A rendered block that shows exactly its category's query result. */
  predicate ShowsItsCategory(cms: Cms, now: int, nullsFirst: bool, failing: set<Query>, s: Section) {
    SectionShows(cms, now, s) && s.posts == CategoryPosts(cms, now, nullsFirst, failing, s.slug)
  }

  /** The blocks of `specs`, in order, each present exactly when its
      category's query found posts. */
  function CategorySections(cms: Cms, now: int, nullsFirst: bool, failing: set<Query>, specs: seq<SectionSpec>): (r: seq<Section>)
    ensures |r| <= |specs|
    ensures forall k :: 0 <= k < |r| ==> ShowsItsCategory(cms, now, nullsFirst, failing, r[k])
    ensures forall j :: 0 <= j < |specs| ==>
      (HasSection(r, specs[j]) <==> CategoryPosts(cms, now, nullsFirst, failing, specs[j].slug) != [])
    decreases |specs|
  {
    if specs == [] then []
    else
      var head := CategorySection(cms, now, nullsFirst, failing, specs[0]);
      var rest := CategorySections(cms, now, nullsFirst, failing, specs[1..]);
      SectionsJoin(cms, now, nullsFirst, failing, head, rest);
      SectionsCover(cms, now, nullsFirst, failing, specs, head, rest);
      head + rest
  }

  lemma SectionsJoin(cms: Cms, now: int, nullsFirst: bool, failing: set<Query>, a: seq<Section>, b: seq<Section>)
    requires forall k :: 0 <= k < |a| ==> ShowsItsCategory(cms, now, nullsFirst, failing, a[k])
    requires forall k :: 0 <= k < |b| ==> ShowsItsCategory(cms, now, nullsFirst, failing, b[k])
    ensures forall k :: 0 <= k < |a + b| ==> ShowsItsCategory(cms, now, nullsFirst, failing, (a + b)[k])
  {
    forall k | 0 <= k < |a + b| ensures ShowsItsCategory(cms, now, nullsFirst, failing, (a + b)[k]) {
      if k >= |a| {
        assert (a + b)[k] == b[k - |a|];
      }
    }
  }

  /** Every category whose query found posts has its block in `head + rest`. */
  lemma SectionsCover(cms: Cms, now: int, nullsFirst: bool, failing: set<Query>,
                      specs: seq<SectionSpec>, head: seq<Section>, rest: seq<Section>)
    requires specs != []
    requires head == CategorySection(cms, now, nullsFirst, failing, specs[0])
    requires forall j :: 0 <= j < |specs[1..]| && CategoryPosts(cms, now, nullsFirst, failing, specs[1..][j].slug) != [] ==>
      HasSection(rest, specs[1..][j])
    ensures forall j :: 0 <= j < |specs| && CategoryPosts(cms, now, nullsFirst, failing, specs[j].slug) != [] ==>
      HasSection(head + rest, specs[j])
  {
    var r := head + rest;
    forall j | 0 <= j < |specs| && CategoryPosts(cms, now, nullsFirst, failing, specs[j].slug) != []
      ensures HasSection(r, specs[j])
    {
      if j == 0 {
        assert r[0] == head[0];
      } else {
        assert specs[j] == specs[1..][j - 1];
        var k :| 0 <= k < |rest| && rest[k].title == specs[j].title && rest[k].slug == specs[j].slug;
        assert r[|head| + k] == rest[k];
      }
    }
  }

  /** The two sidebar slots: the first pick, and the second one only when
      it is a different ad from the first. */
  function SidebarAds(first: Option<Ads.Ad>, second: Option<Ads.Ad>): (r: seq<Ads.Ad>)
    ensures |r| <= 2
    ensures forall i :: 0 <= i < |r| ==> Some(r[i]) == first || Some(r[i]) == second
    ensures first.Some? ==> r != [] && r[0] == first.value
    ensures |r| == 2 ==> r[0].id != r[1].id
    ensures second.Some? ==> (second.value in r <==> first.None? || first.value.id != second.value.id || first == second)
  {
    var one := if first.Some? then [first.value] else [];
    var two := if second.Some? && (first.None? || second.value.id != first.value.id) then [second.value] else [];
    one + two
  }

  /** The sidebar: two independent picks among the eligible SIDEBAR ads,
      the second dropped when it is the same ad. */
  function SidebarSlots(ads: seq<Ads.Ad>, now: int, draw1: real, draw2: real): (r: seq<Ads.Ad>)
    requires 0.0 <= draw1 < 1.0 && 0.0 <= draw2 < 1.0
    ensures |r| <= 2
    ensures |r| == 2 ==> r[0].id != r[1].id
    ensures forall i :: 0 <= i < |r| ==> r[i] in ads && Ads.Eligible(r[i], Ads.SIDEBAR, now)
    ensures r == [] <==> Ads.GetActiveAds(ads, Ads.SIDEBAR, now) == []
  {
    SidebarAds(Ads.GetRandomAd(ads, Ads.SIDEBAR, now, draw1), Ads.GetRandomAd(ads, Ads.SIDEBAR, now, draw2))
  }

  /** With a single eligible SIDEBAR ad both picks are that ad, and the
      sidebar shows it once. */
  lemma SingleSidebarAdShownOnce(ads: seq<Ads.Ad>, now: int, draw1: real, draw2: real)
    requires 0.0 <= draw1 < 1.0 && 0.0 <= draw2 < 1.0
    requires |Ads.GetActiveAds(ads, Ads.SIDEBAR, now)| == 1
    ensures SidebarSlots(ads, now, draw1, draw2) == [Ads.GetActiveAds(ads, Ads.SIDEBAR, now)[0]]
  {
    var eligible := Ads.GetActiveAds(ads, Ads.SIDEBAR, now);
    var first := Ads.GetRandomAd(ads, Ads.SIDEBAR, now, draw1);
    var second := Ads.GetRandomAd(ads, Ads.SIDEBAR, now, draw2);
    assert first.value in eligible && second.value in eligible;
    assert first == second == Some(eligible[0]);
  }

  /** The latest posts the page keeps: those that are not the featured post. */
  function NotFeatured(featured: Option<Post>): Post -> bool {
    (p: Post) => featured.None? || p.id != featured.value.id
  }

  /** `HomePage`: the four queries, the four ad picks and the category
      blocks, composed as the page renders them. */
  function HomePage(cms: Cms, ads: seq<Ads.Ad>, now: int, nullsFirst: bool, failing: set<Query>, draws: Draws): (r: HomeView)
    requires ValidDraws(draws)
    ensures r.featured == GetFeaturedPost(cms, now, nullsFirst, FeaturedQuery in failing)
    ensures r.latest == Take(Filter(GetLatestPosts(cms, now, None, nullsFirst, LatestQuery in failing), NotFeatured(r.featured)), LATEST_SHOWN)
    ensures r.trending == GetTrendingPosts(cms, now, TrendingQuery in failing)
    ensures r.sections == CategorySections(cms, now, nullsFirst, failing, HOME_CATEGORIES)
    ensures r.topBanner == Ads.GetRandomAd(ads, Ads.TOP_BANNER, now, draws.topBanner)
    ensures r.inlineAd == Ads.GetRandomAd(ads, Ads.INLINE, now, draws.inline)
    ensures r.sidebarAds == SidebarSlots(ads, now, draws.sidebar1, draws.sidebar2)
    ensures r.featured.Some? ==> r.featured.value in cms.posts && Visible(r.featured.value, now) && r.featured.value.isFeatured
    ensures |r.latest| <= LATEST_SHOWN
    ensures forall i :: 0 <= i < |r.latest| ==> r.latest[i] in cms.posts && Visible(r.latest[i], now)
    ensures r.featured.Some? ==> forall i :: 0 <= i < |r.latest| ==> r.latest[i].id != r.featured.value.id
    ensures |r.sections| <= 3
    ensures forall k :: 0 <= k < |r.sections| ==> SectionShows(cms, now, r.sections[k])
    ensures r.topBanner.Some? ==> Ads.Eligible(r.topBanner.value, Ads.TOP_BANNER, now)
    ensures r.inlineAd.Some? ==> Ads.Eligible(r.inlineAd.value, Ads.INLINE, now)
  {
    var featured := GetFeaturedPost(cms, now, nullsFirst, FeaturedQuery in failing);
    var latestPosts := GetLatestPosts(cms, now, None, nullsFirst, LatestQuery in failing);
    var latest := Take(Filter(latestPosts, NotFeatured(featured)), LATEST_SHOWN);
    LatestShownAreVisible(latestPosts, NotFeatured(featured), latest, cms, now);
    HomeView(
      Ads.GetRandomAd(ads, Ads.TOP_BANNER, now, draws.topBanner),
      featured,
      latest,
      Ads.GetRandomAd(ads, Ads.INLINE, now, draws.inline),
      CategorySections(cms, now, nullsFirst, failing, HOME_CATEGORIES),
      GetTrendingPosts(cms, now, TrendingQuery in failing),
      SidebarSlots(ads, now, draws.sidebar1, draws.sidebar2))
  }

  /** Without a featured post, whether its query failed or found nothing,
      the latest block is the first five rows of the latest query. */
  lemma NoFeaturedShowsFirstFive(cms: Cms, ads: seq<Ads.Ad>, now: int, nullsFirst: bool, failing: set<Query>, draws: Draws)
    requires ValidDraws(draws)
    requires HomePage(cms, ads, now, nullsFirst, failing, draws).featured.None?
    ensures HomePage(cms, ads, now, nullsFirst, failing, draws).latest
      == Take(GetLatestPosts(cms, now, None, nullsFirst, LatestQuery in failing), LATEST_SHOWN)
  {
    FilterKeepingAll(GetLatestPosts(cms, now, None, nullsFirst, LatestQuery in failing), NotFeatured(None));
  }

  lemma LatestShownAreVisible(latestPosts: seq<Post>, keep: Post -> bool, latest: seq<Post>, cms: Cms, now: int)
    requires forall i :: 0 <= i < |latestPosts| ==> latestPosts[i] in cms.posts && Visible(latestPosts[i], now)
    requires latest == Take(Filter(latestPosts, keep), LATEST_SHOWN)
    ensures forall i :: 0 <= i < |latest| ==> latest[i] in cms.posts && Visible(latest[i], now) && keep(latest[i])
  {
    var kept := Filter(latestPosts, keep);
    forall i | 0 <= i < |latest|
      ensures latest[i] in cms.posts && Visible(latest[i], now) && keep(latest[i])
    {
      assert latest[i] == kept[i];
      var j :| 0 <= j < |latestPosts| && latestPosts[j] == kept[i];
    }
  }
}

=== FILE: http.dfy ===
/** The request and reply shapes shared by the route handlers: the
    signed-in user, the JSON body and the JSON reply with its status code. */
module Http {
  import opened Base

  /** `session.user` of a signed-in request. The role is the string stored
      on the user; nothing restricts it to the three known roles. */
  datatype Session = Session(userId: string, email: string, role: string)

  /** The gate of the admin routes: a signed-in ADMIN or EDITOR. */
  predicate IsStaff(session: Option<Session>) {
    session.Some? && (session.value.role == "ADMIN" || session.value.role == "EDITOR")
  }

  /** The stricter gate of creating an ad: a signed-in ADMIN. */
  predicate IsAdmin(session: Option<Session>) {
    session.Some? && session.value.role == "ADMIN"
  }

  /** The ADMIN gate admits a subset of the staff gate, and an EDITOR is
      exactly the staff member it turns away. */
  lemma AdminGateIsStricter(session: Option<Session>)
    ensures IsAdmin(session) ==> IsStaff(session)
    ensures IsStaff(session) && !IsAdmin(session) <==> session.Some? && session.value.role == "EDITOR"
    ensures session.Some? && session.value.role == "READER" ==> !IsStaff(session)
  {
  }

  /** What `req.json()` yields: a body that does not parse makes the
      handler throw. */
  datatype JsonBody<+T> = Malformed | Parsed(value: T)

  /** The payload of a reply. `ServerError` is the framework's own error
      page, sent when a handler throws an exception it does not catch. */
  datatype Payload<+T> = Data(value: T) | Message(message: string) | Failure(error: string) | ServerError

  datatype Reply<+T> = Reply(status: int, payload: Payload<T>)

  /** A reply together with the store the handler leaves behind. */
  datatype Handled<+S, +T> = Handled(reply: Reply<T>, state: S)

  /** The reply every gate gives to a request it turns away. */
  function Unauthorized<T>(): Reply<T> {
    Reply(401, Failure("Unauthorized"))
  }

  /** The framework's answer to an exception the handler lets escape. */
  function Uncaught<T>(): Reply<T> {
    Reply(500, ServerError)
  }
}

=== FILE: listing.dfy ===
/** The three list operations the store's `findMany` / `findFirst`
    queries combine: a `where` filter, an `orderBy` on a descending key
    and a `take`. */
module Listing {
  import opened Base

  /** Filters keep the store order of the rows they keep. */
  function Filter<T(!new)>(s: seq<T>, keep: T -> bool): (r: seq<T>)
    ensures |r| <= |s|
    ensures forall i :: 0 <= i < |r| ==> r[i] in s && keep(r[i])
    ensures forall x :: multiset(r)[x] == if keep(x) then multiset(s)[x] else 0
  {
    if s == [] then []
    else
      var rest := Filter(s[1..], keep);
      assert s == [s[0]] + s[1..];
      if keep(s[0]) then [s[0]] + rest else rest
  }

  /** A row is kept exactly when it is present and passes the filter. */
  lemma FilterMembership<T(!new)>(s: seq<T>, keep: T -> bool, x: T)
    ensures x in Filter(s, keep) <==> x in s && keep(x)
  {
    var r := Filter(s, keep);
    assert x in r <==> multiset(r)[x] > 0;
    assert x in s <==> multiset(s)[x] > 0;
  }

  /** A filter every row passes returns the rows unchanged. */
  lemma {:induction false} FilterKeepingAll<T(!new)>(s: seq<T>, keep: T -> bool)
    requires forall i :: 0 <= i < |s| ==> keep(s[i])
    ensures Filter(s, keep) == s
  {
    if s != [] {
      FilterKeepingAll(s[1..], keep);
    }
  }

  /** An `orderBy` key; keys compare lexicographically. */
  datatype SortKey = SortKey(major: int, minor: int)

  predicate KeyLe(a: SortKey, b: SortKey) {
    a.major < b.major || (a.major == b.major && a.minor <= b.minor)
  }

  predicate SortedDesc<T(!new)>(s: seq<T>, key: T -> SortKey) {
    forall i, j :: 0 <= i < j < |s| ==> KeyLe(key(s[j]), key(s[i]))
  }

  /** Inserts `x` in front of the first element whose key does not exceed
      its own. */
  function Insert<T(!new)>(x: T, s: seq<T>, key: T -> SortKey): (r: seq<T>)
    requires SortedDesc(s, key)
    ensures SortedDesc(r, key)
    ensures multiset(r) == multiset(s) + multiset{x}
    ensures |r| == |s| + 1
  {
    if s == [] then [x]
    else if KeyLe(key(s[0]), key(x)) then [x] + s
    else
      var rest := Insert(x, s[1..], key);
      assert s == [s[0]] + s[1..];
      assert forall j :: 0 <= j < |rest| ==> KeyLe(key(rest[j]), key(s[0])) by {
        forall j | 0 <= j < |rest|
          ensures KeyLe(key(rest[j]), key(s[0]))
        {
          assert rest[j] in multiset(rest);
          if rest[j] != x {
            assert rest[j] in multiset(s[1..]);
          }
        }
      }
      [s[0]] + rest
  }

  /** A descending sort of the rows by `key`; rows with equal keys keep
      their store order. */
  function SortDesc<T(!new)>(s: seq<T>, key: T -> SortKey): (r: seq<T>)
    ensures SortedDesc(r, key)
    ensures multiset(r) == multiset(s)
    ensures |r| == |s|
  {
    if s == [] then []
    else
      assert s == [s[0]] + s[1..];
      Insert(s[0], SortDesc(s[1..], key), key)
  }

  /** `take: n` for a non-negative `n`. */
  function Take<T>(s: seq<T>, n: nat): (r: seq<T>)
    ensures |r| == Min(n, |s|)
    ensures r == s[..|r|]
  {
    s[..Min(n, |s|)]
  }

  /** `findMany({ where: keep, orderBy: key desc, take: n })`. */
  function FindMany<T(!new)>(s: seq<T>, keep: T -> bool, key: T -> SortKey, n: nat): (r: seq<T>)
    ensures |r| == Min(n, |Filter(s, keep)|)
    ensures multiset(r) <= multiset(Filter(s, keep))
    ensures SortedDesc(r, key)
    ensures forall i :: 0 <= i < |r| ==> r[i] in s && keep(r[i])
    ensures |r| < n ==> forall i :: 0 <= i < |s| && keep(s[i]) ==> s[i] in r
  {
    var sorted := SortDesc(Filter(s, keep), key);
    var r := Take(sorted, n);
    FoundRowsMatch(s, keep, key, n, r);
    PrefixIsSubMultiset(sorted, |r|);
    assert |r| < n ==> forall i :: 0 <= i < |s| && keep(s[i]) ==> s[i] in r by {
      if |r| < n {
        assert r == sorted;
        forall i | 0 <= i < |s| && keep(s[i]) ensures s[i] in r {
          FilterMembership(s, keep, s[i]);
          assert s[i] in multiset(sorted);
        }
      }
    }
    r
  }

  /** A prefix takes no row more often than the whole sequence holds it. */
  lemma PrefixIsSubMultiset<T>(s: seq<T>, k: nat)
    requires k <= |s|
    ensures multiset(s[..k]) <= multiset(s)
  {
    assert s == s[..k] + s[k..];
  }

  lemma FoundRowsMatch<T(!new)>(s: seq<T>, keep: T -> bool, key: T -> SortKey, n: nat, r: seq<T>)
    requires r == Take(SortDesc(Filter(s, keep), key), n)
    ensures forall i :: 0 <= i < |r| ==> r[i] in s && keep(r[i])
  {
    var sorted := SortDesc(Filter(s, keep), key);
    forall i | 0 <= i < |r|
      ensures r[i] in s && keep(r[i])
    {
      assert r[i] == sorted[i];
      assert sorted[i] in multiset(sorted);
      FilterMembership(s, keep, r[i]);
    }
  }

  /** A matching row that `findMany` leaves out ranks no higher than any
      row it returns. */
  lemma FindManyTakesTheTop<T(!new)>(s: seq<T>, keep: T -> bool, key: T -> SortKey, n: nat, i: nat, x: T)
    requires x in s && keep(x)
    requires i < |FindMany(s, keep, key, n)|
    requires x !in FindMany(s, keep, key, n)
    ensures KeyLe(key(x), key(FindMany(s, keep, key, n)[i]))
  {
    var sorted := SortDesc(Filter(s, keep), key);
    var top := Take(sorted, n);
    FilterMembership(s, keep, x);
    assert x in multiset(sorted);
    var j :| 0 <= j < |sorted| && sorted[j] == x;
    assert j >= |top|;
    assert top[i] == sorted[i];
  }

  /** `findFirst({ where: keep, orderBy: key desc })`. */
  function FindFirst<T(!new)>(s: seq<T>, keep: T -> bool, key: T -> SortKey): (r: Option<T>)
    ensures r.Some? ==> r.value in s && keep(r.value)
    ensures r.None? <==> forall i :: 0 <= i < |s| ==> !keep(s[i])
  {
    var top := FindMany(s, keep, key, 1);
    if top == [] then None else Some(top[0])
  }

  /** `findFirst` finds a row whenever one matches, and no matching row
      ranks above the one it finds. */
  lemma FindFirstIsGreatest<T(!new)>(s: seq<T>, keep: T -> bool, key: T -> SortKey, x: T)
    requires x in s && keep(x)
    ensures FindFirst(s, keep, key).Some?
    ensures KeyLe(key(x), key(FindFirst(s, keep, key).value))
  {
    var sorted := SortDesc(Filter(s, keep), key);
    FilterMembership(s, keep, x);
    assert x in multiset(sorted);
    var j :| 0 <= j < |sorted| && sorted[j] == x;
    assert sorted[0] == FindMany(s, keep, key, 1)[0];
    if j > 0 {
      assert KeyLe(key(sorted[j]), key(sorted[0]));
    }
  }
}

=== FILE: membership.dfy ===
/** `src/lib/membership.ts`: the membership table, the premium resolver,
    the paywall decision and the upsert keyed on `userId`. */
module Membership {
  import opened Base
  import opened Utils

  type UserId = string

  /** Stored membership states; a user without a row is implicitly FREE. */
  datatype Status = ACTIVE | CANCELLED | PAST_DUE

  function StatusName(s: Status): (r: string)
    ensures r != "FREE"
  {
    match s
    case ACTIVE => "ACTIVE"
    case CANCELLED => "CANCELLED"
    case PAST_DUE => "PAST_DUE"
  }

  datatype Membership = Membership(
    userId: UserId,
    stripeCustomerId: Option<string>,
    stripeSubscriptionId: Option<string>,
    status: Status,
    currentPeriodEnd: Option<int>)

  /** The membership table: rows keyed by their unique `userId`, and the
      order in which an unordered scan (`findFirst`) visits them. */
  datatype Table = Table(rows: map<UserId, Membership>, scan: seq<UserId>)

  /** Every row is filed under its own user id and the scan visits every
      row exactly once. */
  predicate Valid(t: Table) {
    && (forall u :: u in t.rows ==> t.rows[u].userId == u)
    && (forall i :: 0 <= i < |t.scan| ==> t.scan[i] in t.rows)
    && (forall u :: u in t.rows ==> u in t.scan)
    && (forall i, j :: 0 <= i < j < |t.scan| ==> t.scan[i] != t.scan[j])
  }

  // ---------------------------------------------------------------------
  // getMembershipInfo
  // ---------------------------------------------------------------------

  datatype MembershipInfo = MembershipInfo(isPremium: bool, status: string, currentPeriodEnd: Option<int>)

  const FREE_INFO := MembershipInfo(false, "FREE", None)

  /** `getMembershipInfo(userId)` evaluated at `now`. */
  function GetMembershipInfo(t: Table, userId: Option<UserId>, now: int): (r: MembershipInfo)
    ensures !Truthy(userId) ==> r == FREE_INFO
    ensures Truthy(userId) && userId.value !in t.rows ==> r == FREE_INFO
    ensures Truthy(userId) && userId.value in t.rows ==>
      var m := t.rows[userId.value];
      && r.status == StatusName(m.status)
      && r.currentPeriodEnd == m.currentPeriodEnd
      && (r.isPremium <==> m.status == ACTIVE && (m.currentPeriodEnd.None? || now < m.currentPeriodEnd.value))
    ensures r.isPremium ==> r.status == "ACTIVE"
  {
    if !Truthy(userId) then FREE_INFO
    else if userId.value !in t.rows then FREE_INFO
    else
      var m := t.rows[userId.value];
      var isPremium := m.status == ACTIVE && (m.currentPeriodEnd.None? || m.currentPeriodEnd.value > now);
      MembershipInfo(isPremium, StatusName(m.status), m.currentPeriodEnd)
  }

  /** A CANCELLED or PAST_DUE member is never premium, whatever the period
      end; an ACTIVE one stops being premium at the instant the period
      ends. */
  lemma OnlyActiveUnexpiredIsPremium(t: Table, u: UserId, now: int)
    requires u != "" && u in t.rows
    ensures t.rows[u].status != ACTIVE ==> !GetMembershipInfo(t, Some(u), now).isPremium
    ensures t.rows[u].currentPeriodEnd == Some(now) ==> !GetMembershipInfo(t, Some(u), now).isPremium
    ensures t.rows[u].status == ACTIVE && t.rows[u].currentPeriodEnd.None? ==>
      GetMembershipInfo(t, Some(u), now).isPremium
  {
  }

  /** Premium status, once lost by the passage of time, does not come back
      without a change to the table. */
  lemma PremiumLapsesForGood(t: Table, userId: Option<UserId>, now: int, later: int)
    requires now <= later
    requires !GetMembershipInfo(t, userId, now).isPremium
    ensures !GetMembershipInfo(t, userId, later).isPremium
  {
  }

  // ---------------------------------------------------------------------
  // canAccessPost
  // ---------------------------------------------------------------------

  /** The two post fields the paywall reads. */
  datatype PaywalledPost = PaywalledPost(isPremium: bool, publishAt: Option<int>)

  datatype AccessDecision = AccessDecision(canAccess: bool, reason: Option<string>)

  const ARCHIVE_REASON := "This article is part of our archive. Subscribe to Premium for full archive access."
  const PREMIUM_REASON := "This is a premium article. Subscribe to access."

  const ALLOWED := AccessDecision(true, None)

  /** `canAccessPost(post, membershipInfo)` with the configured window
      `freeAccessDays`, evaluated at `now`. */
  function CanAccessPost(post: PaywalledPost, info: MembershipInfo, freeAccessDays: int, now: int): (r: AccessDecision)
    ensures r.canAccess <==> r.reason.None?
    ensures info.isPremium ==> r == ALLOWED
    ensures !info.isPremium && post.isPremium ==> r == AccessDecision(false, Some(PREMIUM_REASON))
    ensures !info.isPremium && !post.isPremium ==>
      (r.canAccess <==> post.publishAt.None? || now - post.publishAt.value < (freeAccessDays + 1) * MS_PER_DAY)
    ensures !info.isPremium && !post.isPremium && !r.canAccess ==> r.reason == Some(ARCHIVE_REASON)
  {
    if info.isPremium then ALLOWED
    else if !post.isPremium then
      if post.publishAt.Some? && !IsWithinFreeAccess(post.publishAt, freeAccessDays, now) then
        AccessDecision(false, Some(ARCHIVE_REASON))
      else ALLOWED
    else AccessDecision(false, Some(PREMIUM_REASON))
  }

  /** With the default window of 7 days a free post published exactly
      7 days ago is readable by everyone, one published 8 days ago is
      archived for non-members. */
  lemma DefaultWindowBoundary(info: MembershipInfo, now: int)
    requires !info.isPremium
    ensures CanAccessPost(PaywalledPost(false, Some(now - 7 * MS_PER_DAY)), info, DEFAULT_FREE_ACCESS_DAYS, now) == ALLOWED
    ensures CanAccessPost(PaywalledPost(false, Some(now - 8 * MS_PER_DAY)), info, DEFAULT_FREE_ACCESS_DAYS, now)
      == AccessDecision(false, Some(ARCHIVE_REASON))
  {
  }

  /** A reader resolved without a user id, or without a stored row, gets
      exactly the FREE treatment. */
  lemma AnonymousReaderIsFree(t: Table, userId: Option<UserId>, post: PaywalledPost, days: int, now: int)
    requires !Truthy(userId) || userId.value !in t.rows
    ensures CanAccessPost(post, GetMembershipInfo(t, userId, now), days, now).canAccess
      <==> !post.isPremium && IsWithinFreeAccess(post.publishAt, days, now)
  {
  }

  // ---------------------------------------------------------------------
  // createOrUpdateMembership
  // ---------------------------------------------------------------------

  /** The `data` argument of `createOrUpdateMembership`: `status` is
      always given, the other fields may be left out. */
  datatype MembershipData = MembershipData(
    stripeCustomerId: Patch<Option<string>>,
    stripeSubscriptionId: Patch<Option<string>>,
    status: Status,
    currentPeriodEnd: Patch<Option<int>>)

  function ApplyPatch<T>(p: Patch<T>, current: T): T {
    match p
    case Keep => current
    case Put(v) => v
  }

  /** The row an upsert starts from: the stored one, or a row whose
      optional columns are all null. */
  function Existing(t: Table, userId: UserId, status: Status): Membership {
    if userId in t.rows then t.rows[userId] else Membership(userId, None, None, status, None)
  }

  /** `createOrUpdateMembership(userId, data)`: an upsert keyed on `userId`. */
  function CreateOrUpdateMembership(t: Table, userId: UserId, data: MembershipData): (r: Table)
    requires Valid(t)
    ensures Valid(r)
    ensures r.rows.Keys == t.rows.Keys + {userId}
    ensures forall u :: u in t.rows && u != userId ==> r.rows[u] == t.rows[u]
    ensures userId in t.rows ==> r.scan == t.scan
    ensures userId !in t.rows ==> r.scan == t.scan + [userId]
    ensures r.rows[userId].userId == userId
    ensures r.rows[userId].status == data.status
    ensures data.stripeCustomerId.Put? ==> r.rows[userId].stripeCustomerId == data.stripeCustomerId.value
    ensures data.stripeSubscriptionId.Put? ==> r.rows[userId].stripeSubscriptionId == data.stripeSubscriptionId.value
    ensures data.currentPeriodEnd.Put? ==> r.rows[userId].currentPeriodEnd == data.currentPeriodEnd.value
    ensures data.stripeCustomerId.Keep? ==>
      r.rows[userId].stripeCustomerId == (if userId in t.rows then t.rows[userId].stripeCustomerId else None)
    ensures data.stripeSubscriptionId.Keep? ==>
      r.rows[userId].stripeSubscriptionId == (if userId in t.rows then t.rows[userId].stripeSubscriptionId else None)
    ensures data.currentPeriodEnd.Keep? ==>
      r.rows[userId].currentPeriodEnd == (if userId in t.rows then t.rows[userId].currentPeriodEnd else None)
  {
    var before := Existing(t, userId, data.status);
    var row := Membership(
      userId,
      ApplyPatch(data.stripeCustomerId, before.stripeCustomerId),
      ApplyPatch(data.stripeSubscriptionId, before.stripeSubscriptionId),
      data.status,
      ApplyPatch(data.currentPeriodEnd, before.currentPeriodEnd));
    var scan := if userId in t.rows then t.scan else t.scan + [userId];
    UpsertKeepsValid(t, userId, row);
    Table(t.rows[userId := row], scan)
  }

  lemma UpsertKeepsValid(t: Table, userId: UserId, row: Membership)
    requires Valid(t) && row.userId == userId
    ensures Valid(Table(t.rows[userId := row], if userId in t.rows then t.scan else t.scan + [userId]))
  {
    if userId !in t.rows {
      var scan := t.scan + [userId];
      assert forall i :: 0 <= i < |t.scan| ==> scan[i] == t.scan[i];
      assert forall i :: 0 <= i < |t.scan| ==> scan[i] != userId;
    }
  }

  /** Replaying an upsert leaves the table as one application left it. */
  lemma UpsertIdempotent(t: Table, userId: UserId, data: MembershipData)
    requires Valid(t)
    ensures CreateOrUpdateMembership(CreateOrUpdateMembership(t, userId, data), userId, data)
      == CreateOrUpdateMembership(t, userId, data)
  {
    var once := CreateOrUpdateMembership(t, userId, data);
    var twice := CreateOrUpdateMembership(once, userId, data);
    assert twice.rows[userId] == once.rows[userId];
    assert twice.rows == once.rows;
  }
}

=== FILE: newsletter_api.dfy ===
/** `src/app/api/newsletter/route.ts`: subscribing an email address,
    with the optional hand-off to an external email provider. */
module NewsletterApi {
  import opened Base
  import opened Http

  const PLACEHOLDER_URL := "https://api.yourprovider.com/subscribe"
  const INVALID_EMAIL := "Invalid email address"
  /** The messages the schema reports for a missing `email` and for one
      that is `null` (the texts of zod 3). */
  const REQUIRED := "Required"
  const RECEIVED_NULL := "Expected string, received null"
  const ALREADY_SUBSCRIBED := "You are already subscribed!"
  const SUBSCRIBED := "Successfully subscribed!"
  const SUBSCRIBE_FAILED: Reply<()> := Reply(500, Failure("Failed to subscribe"))

  /** `EMAIL_PROVIDER_API_URL` and `EMAIL_PROVIDER_API_KEY`. */
  datatype ProviderConfig = ProviderConfig(apiUrl: Option<string>, apiKey: Option<string>)

  /** The provider is called only with a URL and a key, and not with the
      placeholder URL of the example configuration. */
  predicate ShouldSync(c: ProviderConfig) {
    Truthy(c.apiUrl) && Truthy(c.apiKey) && c.apiUrl.value != PLACEHOLDER_URL
  }

  /** What happened to the provider call; it only reaches the log. */
  datatype ProviderCall = NotCalled | Synced | SyncFailed

  datatype Outcome = Outcome(reply: Reply<()>, subscribers: set<string>, provider: ProviderCall)

  /** The `email` key of the body: absent, JSON `null`, or a string. */
  datatype EmailField = Absent | Null | Text(text: string)

  /** The schema check: the first issue's message, or `None` when the
      address passes. */
  function CheckEmail(email: EmailField, isEmail: string -> bool): (r: Option<string>)
    ensures r.None? <==> email.Text? && isEmail(email.text)
    ensures email.Absent? ==> r == Some(REQUIRED)
    ensures email.Null? ==> r == Some(RECEIVED_NULL)
    ensures email.Text? && r.Some? ==> r == Some(INVALID_EMAIL)
  {
    match email
    case Absent => Some(REQUIRED)
    case Null => Some(RECEIVED_NULL)
    case Text(address) => if isEmail(address) then None else Some(INVALID_EMAIL)
  }

  /** `POST /api/newsletter`. `isEmail` is the schema's address check,
      `storeFails` a store error and `providerFails` a failing provider
      call. */
  function Subscribe(body: JsonBody<EmailField>, subscribers: set<string>, config: ProviderConfig,
                     isEmail: string -> bool, storeFails: bool, providerFails: bool): (r: Outcome)
    ensures r.reply.status != 201 ==> r.subscribers == subscribers && r.provider == NotCalled
    ensures body.Malformed? ==> r.reply == SUBSCRIBE_FAILED
    ensures body.Parsed? && CheckEmail(body.value, isEmail).Some? ==>
      r.reply == Reply(400, Failure(CheckEmail(body.value, isEmail).value))
    ensures body.Parsed? && CheckEmail(body.value, isEmail).None? ==>
      var email := body.value.text;
      && (storeFails ==> r.reply == SUBSCRIBE_FAILED)
      && (!storeFails && email in subscribers ==> r.reply == Reply(200, Message(ALREADY_SUBSCRIBED)))
      && (!storeFails && email !in subscribers ==>
            && r.reply == Reply(201, Message(SUBSCRIBED))
            && r.subscribers == subscribers + {email}
            && (r.provider != NotCalled <==> ShouldSync(config)))
    ensures r.reply.status == 201 ==> |r.subscribers| == |subscribers| + 1
  {
    if body.Malformed? then Outcome(SUBSCRIBE_FAILED, subscribers, NotCalled)
    else
      match CheckEmail(body.value, isEmail)
      case Some(message) => Outcome(Reply(400, Failure(message)), subscribers, NotCalled)
      case None =>
        var email := body.value.text;
        if storeFails then Outcome(SUBSCRIBE_FAILED, subscribers, NotCalled)
        else if email in subscribers then Outcome(Reply(200, Message(ALREADY_SUBSCRIBED)), subscribers, NotCalled)
        else
          var call := if !ShouldSync(config) then NotCalled else if providerFails then SyncFailed else Synced;
          Outcome(Reply(201, Message(SUBSCRIBED)), subscribers + {email}, call)
  }

  /** Subscribing again answers 200 and leaves the subscribers as the
      first subscription left them: one row per address. */
  lemma SubscribeIsIdempotent(email: string, subscribers: set<string>, config: ProviderConfig,
                              isEmail: string -> bool, providerFails: bool)
    requires isEmail(email)
    ensures var once := Subscribe(Parsed(Text(email)), subscribers, config, isEmail, false, providerFails);
      var twice := Subscribe(Parsed(Text(email)), once.subscribers, config, isEmail, false, providerFails);
      && email in once.subscribers
      && twice.subscribers == once.subscribers
      && twice.reply == Reply(200, Message(ALREADY_SUBSCRIBED))
  {
  }

  /** A failing provider changes neither the reply nor the stored
      subscribers. */
  lemma ProviderFailureIsInvisible(body: JsonBody<EmailField>, subscribers: set<string>, config: ProviderConfig,
                                   isEmail: string -> bool, storeFails: bool)
    ensures var ok := Subscribe(body, subscribers, config, isEmail, storeFails, false);
      var failed := Subscribe(body, subscribers, config, isEmail, storeFails, true);
      ok.reply == failed.reply && ok.subscribers == failed.subscribers
  {
  }

  /** The placeholder URL never triggers a provider call. */
  lemma PlaceholderIsNeverCalled(key: Option<string>)
    ensures !ShouldSync(ProviderConfig(Some(PLACEHOLDER_URL), key))
    ensures !ShouldSync(ProviderConfig(None, key))
  {
  }
}

=== FILE: post_form.dfy ===
/** `src/app/admin/posts/new/page.tsx`: the new-post form's schema, its
    defaults, and the body it sends to `POST /api/admin/posts`. */
module PostForm {
  import opened Base
  import opened Http
  import opened Content
  import AdminPostsApi

  /** The form's values as the schema sees them. Text inputs hold strings;
      `imageUrl`, `label` and `publishAt` may be missing. */
  datatype FormData = FormData(
    title: string,
    externalUrl: string,
    summary: string,
    categoryId: string,
    imageUrl: Option<string>,
    labelText: Option<string>,
    isPremium: bool,
    isFeatured: bool,
    status: string,
    publishAt: Option<string>)

  /** The fields the schema constrains. */
  datatype Field = Title | ExternalUrl | Summary | CategoryId | ImageUrl | Status

  const SUMMARY_MIN_LENGTH := 10

  /** The form's initial choices: a draft, free and not featured. */
  predicate HasDefaults(form: FormData) {
    form.status == "DRAFT" && !form.isPremium && !form.isFeatured
  }

  /** The fields `postSchema` rejects; `isUrl` is the schema's URL check. */
  function SchemaErrors(form: FormData, isUrl: string -> bool): (r: set<Field>)
    ensures Title in r <==> form.title == ""
    ensures ExternalUrl in r <==> !isUrl(form.externalUrl)
    ensures Summary in r <==> |form.summary| < SUMMARY_MIN_LENGTH
    ensures CategoryId in r <==> form.categoryId == ""
    ensures Status !in r <==> ParsePostStatus(form.status).Some?
    ensures ImageUrl !in r <==> form.imageUrl.None? || form.imageUrl == Some("") || isUrl(form.imageUrl.value)
  {
    (if |form.title| < 1 then {Title} else {})
    + (if !isUrl(form.externalUrl) then {ExternalUrl} else {})
    + (if |form.summary| < SUMMARY_MIN_LENGTH then {Summary} else {})
    + (if |form.categoryId| < 1 then {CategoryId} else {})
    + (if form.imageUrl.Some? && form.imageUrl.value != "" && !isUrl(form.imageUrl.value) then {ImageUrl} else {})
    + (if form.status != "DRAFT" && form.status != "SCHEDULED" && form.status != "PUBLISHED" then {Status} else {})
  }

  /** Only the image URL has an empty-string alternative: an empty external
      URL is rejected by a URL check that rejects "", an empty image URL
      never is. */
  lemma EmptyExternalUrlIsRejected(form: FormData, isUrl: string -> bool)
    requires !isUrl("")
    requires form.externalUrl == "" && form.imageUrl == Some("")
    ensures ExternalUrl in SchemaErrors(form, isUrl)
    ensures ImageUrl !in SchemaErrors(form, isUrl)
  {
  }

  /** `onSubmit`: the request body. An empty or missing image becomes null
      and so does an empty or missing date; a date is sent as the ISO
      string `toIso` makes of it, and `None` stands for the exception
      `toISOString` throws on an invalid date, which aborts the submit. */
  function Submit(form: FormData, toIso: string -> Option<string>): (r: Option<AdminPostsApi.PostBody>)
    ensures r.None? <==> Truthy(form.publishAt) && toIso(form.publishAt.value).None?
    ensures r.Some? ==> (r.value.imageUrl.None? <==> !Truthy(form.imageUrl))
    ensures r.Some? && r.value.imageUrl.Some? ==> r.value.imageUrl == form.imageUrl
    ensures r.Some? ==> (r.value.publishAt.None? <==> !Truthy(form.publishAt))
    ensures r.Some? && r.value.publishAt.Some? ==> r.value.publishAt == toIso(form.publishAt.value)
    ensures r.Some? ==> && r.value.title == Some(form.title) && r.value.summary == Some(form.summary)
                        && r.value.categoryId == Some(form.categoryId) && r.value.status == Some(form.status)
                        && r.value.isPremium == Some(form.isPremium) && r.value.isFeatured == Some(form.isFeatured)
    ensures r.Some? ==> r.value.externalUrl == Some(form.externalUrl) && r.value.labelText == form.labelText
  {
    var publishAt := if Truthy(form.publishAt) then toIso(form.publishAt.value) else None;
    if Truthy(form.publishAt) && publishAt.None? then None
    else
      Some(AdminPostsApi.PostBody(
        Some(form.title), Some(form.externalUrl), Some(form.summary), Some(form.categoryId),
        OrElse(form.imageUrl, None), form.labelText,
        Some(form.isPremium), Some(form.isFeatured), Some(form.status), publishAt))
  }

  /** A form the schema accepts, once submitted by a staff member, is
      created as entered: the store accepts it whenever its category
      exists, its slug and id are free and its date reads back. */
  lemma AcceptedFormIsCreated(session: Option<Session>, form: FormData, isUrl: string -> bool,
                              toIso: string -> Option<string>, cms: Cms, now: nat, newId: string,
                              parseDate: string -> Option<int>)
    requires IsStaff(session) && SchemaErrors(form, isUrl) == {}
    requires Submit(form, toIso).Some?
    requires Truthy(form.publishAt) ==> parseDate(toIso(form.publishAt.value).value).Some?
    requires CategoryIdTaken(cms.categories, form.categoryId)
    requires !PostSlugTaken(cms.posts, AdminPostsApi.UniqueSlug(cms.posts, form.title, now))
    requires !PostIdTaken(cms.posts, newId)
    ensures var r := AdminPostsApi.CreatePost(session, Parsed(Submit(form, toIso).value), cms, now, newId, parseDate, false);
      && r.reply.status == 201
      && var p := r.reply.payload.value;
      && p.title == form.title && p.summary == form.summary && p.categoryId == form.categoryId
      && PostStatusName(p.status) == form.status
      && p.isPremium == form.isPremium && p.isFeatured == form.isFeatured
      && p.externalUrl == form.externalUrl
      && (if Truthy(form.imageUrl) then p.imageUrl == form.imageUrl else p.imageUrl.None?)
      && (if Truthy(form.labelText) then p.labelText == form.labelText else p.labelText.None?)
      && (Truthy(form.publishAt) && Truthy(toIso(form.publishAt.value)) ==> p.publishAt == parseDate(toIso(form.publishAt.value).value))
      && (!Truthy(form.publishAt) ==> p.publishAt == (if form.status == "PUBLISHED" then Some(now) else None))
      && p.authorId == session.value.userId && p.id == newId
      && p.slug == AdminPostsApi.UniqueSlug(cms.posts, form.title, now)
  {
    var body := Submit(form, toIso).value;
    var slug := AdminPostsApi.UniqueSlug(cms.posts, form.title, now);
    var created := AdminPostsApi.NewPost(cms, session.value.userId, body, slug, now, newId, parseDate);
    assert ParsePostStatus(OrElse(body.status, Some("DRAFT")).value).Some?;
    assert AdminPostsApi.PublishAtOf(body, now, parseDate).Some?;
    assert created.Some?;
    AdminPostsApi.CreateSucceeds(session, body, cms, now, newId, parseDate);
    SubmittedRow(form, toIso, body, created.value, now, parseDate);
  }

  /** The row built from a submitted form carries the form's link, image,
      label and date as the route stores them. */
  lemma SubmittedRow(form: FormData, toIso: string -> Option<string>, body: AdminPostsApi.PostBody, p: Post,
                     now: nat, parseDate: string -> Option<int>)
    requires Submit(form, toIso) == Some(body)
    requires p.externalUrl == body.externalUrl.value
    requires if Truthy(body.imageUrl) then p.imageUrl == body.imageUrl else p.imageUrl.None?
    requires if Truthy(body.labelText) then p.labelText == body.labelText else p.labelText.None?
    requires AdminPostsApi.PublishAtOf(body, now, parseDate) == Some(p.publishAt)
    ensures p.externalUrl == form.externalUrl
    ensures if Truthy(form.imageUrl) then p.imageUrl == form.imageUrl else p.imageUrl.None?
    ensures if Truthy(form.labelText) then p.labelText == form.labelText else p.labelText.None?
    ensures Truthy(form.publishAt) && Truthy(toIso(form.publishAt.value)) ==> p.publishAt == parseDate(toIso(form.publishAt.value).value)
    ensures !Truthy(form.publishAt) ==> p.publishAt == (if form.status == "PUBLISHED" then Some(now) else None)
  {
  }

  /** A form left at its defaults and without a date creates a free,
      unfeatured draft that no public listing shows. */
  lemma DefaultFormCreatesHiddenDraft(session: Option<Session>, form: FormData, toIso: string -> Option<string>,
                                      cms: Cms, now: nat, newId: string, parseDate: string -> Option<int>, later: int)
    requires HasDefaults(form) && !Truthy(form.publishAt)
    requires AdminPostsApi.CreatePost(session, Parsed(Submit(form, toIso).value), cms, now, newId, parseDate, false).reply.status == 201
    ensures var p := AdminPostsApi.CreatePost(session, Parsed(Submit(form, toIso).value), cms, now, newId, parseDate, false).reply.payload.value;
      p.status == DRAFT && !p.isPremium && !p.isFeatured && p.publishAt.None? && !Visible(p, later)
  {
    var body := Submit(form, toIso).value;
    AdminPostsApi.CreatedRow(session, body, cms, now, newId, parseDate);
    assert ParsePostStatus(OrElse(body.status, Some("DRAFT")).value) == Some(DRAFT);
    assert AdminPostsApi.PublishAtOf(body, now, parseDate) == Some(None);
  }
}

=== FILE: stripe_webhook.dfy ===
/** `src/app/api/stripe/webhook/route.ts`: the guards in front of the
    billing webhook and the three event handlers, as transitions of the
    membership table. */
module StripeWebhook {
  import opened Base
  import opened Membership

  /** The fields of a retrieved subscription the handler reads; the period
      end is in seconds, as the billing provider sends it. */
  datatype Subscription = Subscription(id: string, currentPeriodEndSec: int)

  /** The event kinds the handler distinguishes by `event.type`. */
  datatype Event =
    | CheckoutSessionCompleted(metadataUserId: Option<string>, sessionCustomer: Option<string>, subscription: Option<string>)
    | SubscriptionUpdated(customer: string, providerStatus: string, currentPeriodEndSec: int)
    | SubscriptionDeleted(customer: string)
    | OtherEvent(eventType: string)

  /** An incoming request: the `stripe-signature` header, whether the
      signature check over the raw body succeeds, and the decoded event. */
  datatype Request = Request(signature: Option<string>, signatureVerifies: bool, event: Event)

  datatype Response = Received | NotConfigured | NoSignature | InvalidSignature | HandlerFailed

  function HttpStatus(r: Response): int {
    match r
    case Received => 200
    case NotConfigured => 500
    case NoSignature => 400
    case InvalidSignature => 400
    case HandlerFailed => 500
  }

  datatype Outcome = Outcome(response: Response, table: Table)

  const MS_PER_SECOND := 1000

  /** The provider's subscription status mapped to the stored one. */
  function MapProviderStatus(providerStatus: string): (r: Status)
    ensures r == CANCELLED <==> providerStatus == "canceled"
    ensures r == PAST_DUE <==> providerStatus == "past_due"
    ensures r == ACTIVE <==> providerStatus != "canceled" && providerStatus != "past_due"
  {
    if providerStatus == "canceled" then CANCELLED
    else if providerStatus == "past_due" then PAST_DUE
    else if providerStatus == "active" then ACTIVE
    else ACTIVE
  }

  predicate HasCustomer(t: Table, u: UserId, customer: string)
    requires u in t.rows
  {
    t.rows[u].stripeCustomerId == Some(customer)
  }

  /** Position of the first row, from scan position `i` on, whose customer
      id is `customer`; `|t.scan|` when there is none. */
  function FirstMatchFrom(t: Table, customer: string, i: nat): (r: nat)
    requires Valid(t) && i <= |t.scan|
    ensures i <= r <= |t.scan|
    ensures r < |t.scan| ==> HasCustomer(t, t.scan[r], customer)
    ensures forall j :: i <= j < r ==> !HasCustomer(t, t.scan[j], customer)
    decreases |t.scan| - i
  {
    if i == |t.scan| then i
    else if HasCustomer(t, t.scan[i], customer) then i
    else FirstMatchFrom(t, customer, i + 1)
  }

  /** `prisma.membership.findFirst({ where: { stripeCustomerId } })`. */
  function FindFirstByCustomer(t: Table, customer: string): (r: Option<UserId>)
    requires Valid(t)
    ensures r.Some? ==> r.value in t.rows && HasCustomer(t, r.value, customer)
    ensures r.None? ==> forall u :: u in t.rows ==> !HasCustomer(t, u, customer)
  {
    var k := FirstMatchFrom(t, customer, 0);
    if k < |t.scan| then Some(t.scan[k])
    else
      assert forall u :: u in t.rows ==> !HasCustomer(t, u, customer) by {
        forall u | u in t.rows ensures !HasCustomer(t, u, customer) {
          var j :| 0 <= j < |t.scan| && t.scan[j] == u;
        }
      }
      None
  }

  /** The lookup only reads the scan order and the customer ids. */
  lemma {:induction false} FirstMatchDependsOnCustomerIds(t1: Table, t2: Table, customer: string, i: nat)
    requires Valid(t1) && Valid(t2) && t1.scan == t2.scan && i <= |t1.scan|
    requires forall u :: u in t1.rows ==> u in t2.rows && t1.rows[u].stripeCustomerId == t2.rows[u].stripeCustomerId
    ensures FirstMatchFrom(t1, customer, i) == FirstMatchFrom(t2, customer, i)
    decreases |t1.scan| - i
  {
    if i < |t1.scan| {
      FirstMatchDependsOnCustomerIds(t1, t2, customer, i + 1);
    }
  }

  /** The data the checkout-completed handler upserts. */
  function CheckoutData(customer: Option<string>, sub: Subscription): MembershipData {
    MembershipData(Put(customer), Put(Some(sub.id)), ACTIVE, Put(Some(sub.currentPeriodEndSec * MS_PER_SECOND)))
  }

  function UpdatedData(providerStatus: string, currentPeriodEndSec: int): MembershipData {
    MembershipData(Keep, Keep, MapProviderStatus(providerStatus), Put(Some(currentPeriodEndSec * MS_PER_SECOND)))
  }

  const DeletedData := MembershipData(Keep, Keep, CANCELLED, Keep)

  /** `t'` differs from `t` at most in the row of `u`, which it may add. */
  predicate OnlyRowChanged(t: Table, t': Table, u: UserId) {
    && t'.rows.Keys == t.rows.Keys + {u}
    && forall v :: v in t.rows && v != u ==> t'.rows[v] == t.rows[v]
  }

  /** The checkout handler writes: the event carries a user id and a
      subscription id. */
  predicate CheckoutWrites(ev: Event)
    requires ev.CheckoutSessionCompleted?
  {
    Truthy(ev.metadataUserId) && Truthy(ev.subscription)
  }

  /** The `switch (event.type)` block; `None` is an exception thrown while
      handling (the subscription lookup or the store failing). */
  function HandleEvent(t: Table, ev: Event, retrieve: string -> Option<Subscription>, storeFails: bool): (r: Option<Table>)
    requires Valid(t)
    ensures r.Some? ==> Valid(r.value)
    ensures r.None? <==>
      if ev.CheckoutSessionCompleted? then CheckoutWrites(ev) && (retrieve(ev.subscription.value).None? || storeFails)
      else storeFails && !ev.OtherEvent?
    ensures r.Some? && ev.CheckoutSessionCompleted? && CheckoutWrites(ev) ==>
      OnlyRowChanged(t, r.value, ev.metadataUserId.value) && r.value.rows[ev.metadataUserId.value].status == ACTIVE
    ensures r.Some? && (ev.SubscriptionUpdated? || ev.SubscriptionDeleted?) && FindFirstByCustomer(t, ev.customer).Some? ==>
      var u := FindFirstByCustomer(t, ev.customer).value;
      OnlyRowChanged(t, r.value, u) && r.value.rows.Keys == t.rows.Keys
      && r.value.rows[u].stripeCustomerId == t.rows[u].stripeCustomerId
      && r.value.rows[u].status == (if ev.SubscriptionUpdated? then MapProviderStatus(ev.providerStatus) else CANCELLED)
    ensures r.Some? && (|| ev.OtherEvent?
                        || (ev.CheckoutSessionCompleted? && !CheckoutWrites(ev))
                        || ((ev.SubscriptionUpdated? || ev.SubscriptionDeleted?) && FindFirstByCustomer(t, ev.customer).None?)) ==>
      r.value == t
  {
    match ev
    case CheckoutSessionCompleted(userId, customer, subscription) =>
      if Truthy(userId) && Truthy(subscription) then
        (match retrieve(subscription.value)
         case None => None
         case Some(sub) =>
           if storeFails then None
           else Some(CreateOrUpdateMembership(t, userId.value, CheckoutData(customer, sub))))
      else Some(t)
    case SubscriptionUpdated(customer, providerStatus, endSec) =>
      if storeFails then None
      else
        (match FindFirstByCustomer(t, customer)
         case None => Some(t)
         case Some(u) => Some(CreateOrUpdateMembership(t, u, UpdatedData(providerStatus, endSec))))
    case SubscriptionDeleted(customer) =>
      if storeFails then None
      else
        (match FindFirstByCustomer(t, customer)
         case None => Some(t)
         case Some(u) => Some(CreateOrUpdateMembership(t, u, DeletedData)))
    case OtherEvent(_) => Some(t)
  }

  /** The guards in front of the handler pass. */
  predicate Admitted(stripeConfigured: bool, req: Request) {
    stripeConfigured && Truthy(req.signature) && req.signatureVerifies
  }

  /** `POST` of the webhook route. */
  function Webhook(t: Table, stripeConfigured: bool, req: Request,
                   retrieve: string -> Option<Subscription>, storeFails: bool): (r: Outcome)
    requires Valid(t)
    ensures Valid(r.table)
    ensures !stripeConfigured ==> r == Outcome(NotConfigured, t)
    ensures stripeConfigured && !Truthy(req.signature) ==> r == Outcome(NoSignature, t)
    ensures stripeConfigured && Truthy(req.signature) && !req.signatureVerifies ==> r == Outcome(InvalidSignature, t)
    ensures r.response != Received ==> r.table == t
    ensures r.response == Received ==> Admitted(stripeConfigured, req)
    ensures HttpStatus(r.response) == 200 <==> r.response == Received
  {
    if !stripeConfigured then Outcome(NotConfigured, t)
    else if !Truthy(req.signature) then Outcome(NoSignature, t)
    else if !req.signatureVerifies then Outcome(InvalidSignature, t)
    else
      match HandleEvent(t, req.event, retrieve, storeFails)
      case None => Outcome(HandlerFailed, t)
      case Some(t') => Outcome(Received, t')
  }

  // ---------------------------------------------------------------------
  // Per-event effects
  // ---------------------------------------------------------------------

  /** A completed checkout with a user id and a subscription makes that
      user's row ACTIVE with the customer, the subscription and the period
      end in milliseconds; no other row changes. */
  lemma CheckoutCompletedEffect(t: Table, req: Request, retrieve: string -> Option<Subscription>,
                                userId: UserId, sub: Subscription)
    requires Valid(t) && Admitted(true, req)
    requires req.event.CheckoutSessionCompleted?
    requires req.event.metadataUserId == Some(userId) && userId != ""
    requires Truthy(req.event.subscription) && retrieve(req.event.subscription.value) == Some(sub)
    ensures var r := Webhook(t, true, req, retrieve, false);
      && r.response == Received
      && r.table.rows.Keys == t.rows.Keys + {userId}
      && r.table.rows[userId]
         == Membership(userId, req.event.sessionCustomer, Some(sub.id), ACTIVE, Some(sub.currentPeriodEndSec * 1000))
      && (forall u :: u in t.rows && u != userId ==> r.table.rows[u] == t.rows[u])
  {
  }

  /** A completed checkout without a user id or without a subscription is
      acknowledged and changes nothing. */
  lemma CheckoutWithoutUserOrSubscriptionIsNoop(t: Table, req: Request, retrieve: string -> Option<Subscription>, storeFails: bool)
    requires Valid(t) && Admitted(true, req)
    requires req.event.CheckoutSessionCompleted?
    requires !Truthy(req.event.metadataUserId) || !Truthy(req.event.subscription)
    ensures Webhook(t, true, req, retrieve, storeFails) == Outcome(Received, t)
  {
  }

  /** An update changes the status and period end of the first row with the
      event's customer id, and nothing else: its customer and subscription
      ids and every other row stay as they were. */
  lemma SubscriptionUpdatedEffect(t: Table, req: Request, retrieve: string -> Option<Subscription>, u: UserId)
    requires Valid(t) && Admitted(true, req)
    requires req.event.SubscriptionUpdated?
    requires FindFirstByCustomer(t, req.event.customer) == Some(u)
    ensures var r := Webhook(t, true, req, retrieve, false);
      && r.response == Received
      && r.table.rows.Keys == t.rows.Keys
      && t.rows[u].stripeCustomerId == Some(req.event.customer)
      && r.table.rows[u] == t.rows[u].(status := MapProviderStatus(req.event.providerStatus),
                                        currentPeriodEnd := Some(req.event.currentPeriodEndSec * 1000))
      && (forall v :: v in t.rows && v != u ==> r.table.rows[v] == t.rows[v])
  {
  }

  /** A deletion sets the matched row to CANCELLED and changes nothing
      else. */
  lemma SubscriptionDeletedEffect(t: Table, req: Request, retrieve: string -> Option<Subscription>, u: UserId)
    requires Valid(t) && Admitted(true, req)
    requires req.event.SubscriptionDeleted?
    requires FindFirstByCustomer(t, req.event.customer) == Some(u)
    ensures var r := Webhook(t, true, req, retrieve, false);
      && r.response == Received
      && r.table.rows.Keys == t.rows.Keys
      && r.table.rows[u] == t.rows[u].(status := CANCELLED)
      && (forall v :: v in t.rows && v != u ==> r.table.rows[v] == t.rows[v])
  {
  }

  /** An update or deletion for a customer id no row carries, and any event
      type the handler does not know, is acknowledged and changes nothing. */
  lemma UnmatchedOrUnknownEventIsNoop(t: Table, req: Request, retrieve: string -> Option<Subscription>)
    requires Valid(t) && Admitted(true, req)
    requires || req.event.OtherEvent?
             || ((req.event.SubscriptionUpdated? || req.event.SubscriptionDeleted?)
                 && forall u :: u in t.rows ==> t.rows[u].stripeCustomerId != Some(req.event.customer))
    ensures Webhook(t, true, req, retrieve, false) == Outcome(Received, t)
  {
    if !req.event.OtherEvent? {
      assert FindFirstByCustomer(t, req.event.customer).None?;
    }
  }

  /** Every status string the provider may send maps onto a stored status,
      so an update carrying "active" reactivates a CANCELLED row. */
  lemma UpdateCanReactivate(t: Table, req: Request, retrieve: string -> Option<Subscription>, u: UserId)
    requires Valid(t) && Admitted(true, req)
    requires req.event.SubscriptionUpdated? && req.event.providerStatus == "active"
    requires FindFirstByCustomer(t, req.event.customer) == Some(u)
    requires t.rows[u].status == CANCELLED
    ensures Webhook(t, true, req, retrieve, false).table.rows[u].status == ACTIVE
  {
  }

  /** A completed checkout whose period ends after `now` makes the user
      premium. */
  lemma CheckoutGrantsPremium(t: Table, req: Request, retrieve: string -> Option<Subscription>,
                              userId: UserId, sub: Subscription, now: int)
    requires Valid(t) && Admitted(true, req)
    requires req.event.CheckoutSessionCompleted?
    requires req.event.metadataUserId == Some(userId) && userId != ""
    requires Truthy(req.event.subscription) && retrieve(req.event.subscription.value) == Some(sub)
    requires sub.currentPeriodEndSec * 1000 > now
    ensures GetMembershipInfo(Webhook(t, true, req, retrieve, false).table, Some(userId), now).isPremium
  {
    CheckoutCompletedEffect(t, req, retrieve, userId, sub);
  }

  // ---------------------------------------------------------------------
  // Replay
  // ---------------------------------------------------------------------

  /** Delivering the same request twice leaves the table as delivering it
      once does. */
  lemma WebhookIdempotent(t: Table, configured: bool, req: Request,
                          retrieve: string -> Option<Subscription>, storeFails: bool)
    requires Valid(t)
    ensures var once := Webhook(t, configured, req, retrieve, storeFails).table;
      Webhook(once, configured, req, retrieve, storeFails).table == once
  {
    var once := Webhook(t, configured, req, retrieve, storeFails).table;
    if Admitted(configured, req) && HandleEvent(t, req.event, retrieve, storeFails).Some? {
      match req.event
      case CheckoutSessionCompleted(userId, customer, subscription) =>
        if Truthy(userId) && Truthy(subscription) {
          var sub := retrieve(subscription.value).value;
          UpsertIdempotent(t, userId.value, CheckoutData(customer, sub));
        }
      case SubscriptionUpdated(customer, providerStatus, endSec) =>
        ReplayOfLookupUpsert(t, customer, UpdatedData(providerStatus, endSec));
      case SubscriptionDeleted(customer) =>
        ReplayOfLookupUpsert(t, customer, DeletedData);
      case OtherEvent(_) =>
    }
  }

  /** Looking a row up by customer id and upserting data that keeps the
      customer id finds the same row again, and the second upsert is a
      no-op. */
  lemma ReplayOfLookupUpsert(t: Table, customer: string, data: MembershipData)
    requires Valid(t) && data.stripeCustomerId.Keep?
    ensures match FindFirstByCustomer(t, customer)
      case None => true
      case Some(u) =>
        var once := CreateOrUpdateMembership(t, u, data);
        FindFirstByCustomer(once, customer) == Some(u)
        && CreateOrUpdateMembership(once, u, data) == once
  {
    match FindFirstByCustomer(t, customer)
    case None =>
    case Some(u) =>
      var once := CreateOrUpdateMembership(t, u, data);
      FirstMatchDependsOnCustomerIds(t, once, customer, 0);
      UpsertIdempotent(t, u, data);
  }
}

=== FILE: utils.dfy ===
/** The helpers of `src/lib/utils.ts`: relative-time buckets, `slugify`,
    `truncate` and the free-archive window. */
module Utils {
  import opened Base

  const MS_PER_MINUTE := 60000
  const MS_PER_HOUR := 3600000
  const MS_PER_DAY := 86400000

  /** Default of the free-archive window, in days. */
  const DEFAULT_FREE_ACCESS_DAYS := 7

  // ---------------------------------------------------------------------
  // formatDate
  // ---------------------------------------------------------------------

  /** The buckets of `formatDate`. `CalendarDate` is the locale-formatted
      branch, whose text is not modelled. */
  datatype RelativeTime =
    | JustNow
    | MinutesAgo(minutes: nat)
    | HoursAgo(hours: nat)
    | DaysAgo(days: nat)
    | CalendarDate

  /** Buckets the time elapsed from `date` to `now` (both in milliseconds).
      Dafny's `/` by a positive constant is JavaScript's `Math.floor(x / d)`,
      negative differences included. */
  function FormatDate(date: int, now: int): (r: RelativeTime)
    ensures r.JustNow? <==> now - date < MS_PER_MINUTE
    ensures r.MinutesAgo? <==> MS_PER_MINUTE <= now - date < MS_PER_HOUR
    ensures r.HoursAgo? <==> MS_PER_HOUR <= now - date < MS_PER_DAY
    ensures r.DaysAgo? <==> MS_PER_DAY <= now - date < 7 * MS_PER_DAY
    ensures r.CalendarDate? <==> 7 * MS_PER_DAY <= now - date
    ensures r.MinutesAgo? ==>
      1 <= r.minutes < 60 && r.minutes * MS_PER_MINUTE <= now - date < (r.minutes + 1) * MS_PER_MINUTE
    ensures r.HoursAgo? ==>
      1 <= r.hours < 24 && r.hours * MS_PER_HOUR <= now - date < (r.hours + 1) * MS_PER_HOUR
    ensures r.DaysAgo? ==>
      1 <= r.days < 7 && r.days * MS_PER_DAY <= now - date < (r.days + 1) * MS_PER_DAY
  {
    var diffMs := now - date;
    var diffMins := diffMs / MS_PER_MINUTE;
    var diffHours := diffMs / MS_PER_HOUR;
    var diffDays := diffMs / MS_PER_DAY;
    if diffMins < 1 then JustNow
    else if diffMins < 60 then MinutesAgo(diffMins)
    else if diffHours < 24 then HoursAgo(diffHours)
    else if diffDays < 7 then DaysAgo(diffDays)
    else CalendarDate
  }

  /** The text shown for a bucket; `None` for the locale-formatted date.
      Each text names its bucket and count unambiguously. */
  function RelativeText(t: RelativeTime): (r: Option<string>)
    ensures r.None? <==> t.CalendarDate?
    ensures r.Some? ==> ParseRelative(r.value) == Some(t)
  {
    match t
    case JustNow => Some("Just now")
    case MinutesAgo(m) => CountReadsBack(m, "m ago"); Some(NatToString(m) + "m ago")
    case HoursAgo(h) => CountReadsBack(h, "h ago"); Some(NatToString(h) + "h ago")
    case DaysAgo(d) => CountReadsBack(d, "d ago"); Some(NatToString(d) + "d ago")
    case CalendarDate => None
  }

  /** Reads a relative-time text back: `Just now`, or a decimal count
      followed by `m ago`, `h ago` or `d ago`. */
  function ParseRelative(text: string): Option<RelativeTime> {
    if text == "Just now" then Some(JustNow)
    else if |text| <= 5 then None
    else
      var digits, unit := text[..|text| - 5], text[|text| - 5..];
      if !(forall i :: 0 <= i < |digits| ==> IsDigit(digits[i])) then None
      else if unit == "m ago" then Some(MinutesAgo(DigitsValue(digits)))
      else if unit == "h ago" then Some(HoursAgo(DigitsValue(digits)))
      else if unit == "d ago" then Some(DaysAgo(DigitsValue(digits)))
      else None
  }

  lemma CountReadsBack(n: nat, unit: string)
    requires |unit| == 5
    ensures var text := NatToString(n) + unit;
      && text != "Just now" && |text| > 5
      && text[..|text| - 5] == NatToString(n) && text[|text| - 5..] == unit
      && DigitsValue(text[..|text| - 5]) == n
  {
    var text := NatToString(n) + unit;
    assert text[0] == NatToString(n)[0];
    assert text[..|text| - 5] == NatToString(n);
    assert text[|text| - 5..] == unit;
    NatToStringRoundTrip(n);
  }

  /** The coarseness of a bucket, from `JustNow` (0) to `CalendarDate` (4). */
  function BucketRank(t: RelativeTime): nat {
    match t
    case JustNow => 0
    case MinutesAgo(_) => 1
    case HoursAgo(_) => 2
    case DaysAgo(_) => 3
    case CalendarDate => 4
  }

  /** As time passes, a date never moves back to a finer bucket, and within
      a bucket its count never goes down. */
  lemma FormatDateBucketsAreMonotone(date: int, now: int, later: int)
    requires now <= later
    ensures BucketRank(FormatDate(date, now)) <= BucketRank(FormatDate(date, later))
    ensures var a, b := FormatDate(date, now), FormatDate(date, later);
      && (a.MinutesAgo? && b.MinutesAgo? ==> a.minutes <= b.minutes)
      && (a.HoursAgo? && b.HoursAgo? ==> a.hours <= b.hours)
      && (a.DaysAgo? && b.DaysAgo? ==> a.days <= b.days)
  {
  }

  // ---------------------------------------------------------------------
  // Character classes, trimming and run replacement
  // ---------------------------------------------------------------------

  /** The character classes the source's regular expressions and trims use:
      `\s`, `[\s_-]` and `-`. */
  datatype CharClass = Whitespace | SlugSeparator | Dash

  predicate InClass(k: CharClass, c: char) {
    match k
    case Whitespace => IsSpace(c)
    case SlugSeparator => IsSpace(c) || c == '_' || c == '-'
    case Dash => c == '-'
  }

  /** Two characters of class `k` side by side at `i` and `i + 1`. */
  predicate RunAt(k: CharClass, s: string, i: int)
    requires 0 <= i < |s| - 1
  {
    InClass(k, s[i]) && InClass(k, s[i + 1])
  }

  /** The end of the run of class-`k` characters that starts at `i`. */
  function RunEnd(s: string, k: CharClass, i: nat): (j: nat)
    requires i <= |s|
    ensures i <= j <= |s|
    ensures forall m :: i <= m < j ==> InClass(k, s[m])
    ensures j == |s| || !InClass(k, s[j])
    decreases |s| - i
  {
    if i < |s| && InClass(k, s[i]) then RunEnd(s, k, i + 1) else i
  }

  /** The start of the run of class-`k` characters that ends at `j`. */
  function RunStart(s: string, k: CharClass, j: nat): (i: nat)
    requires j <= |s|
    ensures i <= j
    ensures forall m :: i <= m < j ==> InClass(k, s[m])
    ensures i == 0 || !InClass(k, s[i - 1])
  {
    if j > 0 && InClass(k, s[j - 1]) then RunStart(s, k, j - 1) else j
  }

  /** Removes the leading run of characters of class `k` (`^k+`). */
  function TrimStart(s: string, k: CharClass): (r: string)
    ensures |r| <= |s| && r == s[|s| - |r|..]
    ensures forall i :: 0 <= i < |s| - |r| ==> InClass(k, s[i])
    ensures r == [] || !InClass(k, r[0])
  {
    s[RunEnd(s, k, 0)..]
  }

  /** Removes the trailing run of characters of class `k` (`k+$`). */
  function TrimEnd(s: string, k: CharClass): (r: string)
    ensures |r| <= |s| && r == s[..|r|]
    ensures forall i :: |r| <= i < |s| ==> InClass(k, s[i])
    ensures r == [] || !InClass(k, r[|r| - 1])
  {
    s[..RunStart(s, k, |s|)]
  }

  /** Every character of `t` is white space. */
  predicate AllSpace(t: string) {
    forall i :: 0 <= i < |t| ==> IsSpace(t[i])
  }

  /** `r` is a contiguous slice of `s` with only white space around it and
      none at its own ends: what trimming `s` leaves. */
  predicate TrimmedSlice(s: string, r: string) {
    && (r == [] || (!IsSpace(r[0]) && !IsSpace(r[|r| - 1])))
    && exists a :: 0 <= a <= |s| - |r| && r == s[a..a + |r|] && AllSpace(s[..a]) && AllSpace(s[a + |r|..])
  }

  /** `String.prototype.trim`. */
  function Trim(s: string): (r: string)
    ensures TrimmedSlice(s, r)
    ensures |r| <= |s|
    ensures r == [] || (!IsSpace(r[0]) && !IsSpace(r[|r| - 1]))
    ensures forall i :: 0 <= i < |r| ==> r[i] in s
    ensures (s == [] || (!IsSpace(s[0]) && !IsSpace(s[|s| - 1]))) ==> r == s
  {
    var front := TrimStart(s, Whitespace);
    var r := TrimEnd(front, Whitespace);
    assert r == [] || (!IsSpace(r[0]) && !IsSpace(r[|r| - 1])) by {
      if r != [] {
        assert r[0] == front[0];
        assert !InClass(Whitespace, front[0]) && !InClass(Whitespace, r[|r| - 1]);
      }
    }
    assert forall i :: 0 <= i < |r| ==> r[i] in s by {
      forall i | 0 <= i < |r| ensures r[i] in s {
        assert r[i] == front[i] == s[|s| - |front| + i];
      }
    }
    assert (s == [] || (!IsSpace(s[0]) && !IsSpace(s[|s| - 1]))) ==> r == s by {
      if s == [] || (!IsSpace(s[0]) && !IsSpace(s[|s| - 1])) {
        TrimStartStops(s, Whitespace);
        TrimEndStops(s, Whitespace);
      }
    }
    TrimSlices(s, front, r);
    r
  }

  lemma TrimSlices(s: string, front: string, r: string)
    requires front == TrimStart(s, Whitespace) && r == TrimEnd(front, Whitespace)
    ensures TrimmedSlice(s, r)
  {
    var a := |s| - |front|;
    assert r == s[a..a + |r|];
    assert AllSpace(s[..a]) by {
      forall i | 0 <= i < a ensures IsSpace(s[..a][i]) {
        assert InClass(Whitespace, s[i]);
      }
    }
    assert AllSpace(s[a + |r|..]) by {
      var e := a + |r|;
      forall i | 0 <= i < |s| - e ensures IsSpace(s[e..][i]) {
        assert s[e..][i] == front[|r| + i];
        assert InClass(Whitespace, front[|r| + i]);
      }
    }
    assert r == [] || (!InClass(Whitespace, r[0]) && !InClass(Whitespace, r[|r| - 1])) by {
      if r != [] {
        assert r[0] == front[0];
      }
    }
  }

  /** At most one slice of `s` is its trimmed form, so `TrimmedSlice`
      pins down `Trim` completely. */
  lemma TrimmedSliceIsUnique(s: string, r1: string, r2: string)
    requires TrimmedSlice(s, r1) && TrimmedSlice(s, r2)
    ensures r1 == r2
  {
    TrimmedSliceIsCanonical(s, r1);
    TrimmedSliceIsCanonical(s, r2);
  }

  /** A trimmed slice is empty exactly when `s` is all white space, and
      otherwise runs from the first to the last visible character. */
  lemma TrimmedSliceIsCanonical(s: string, r: string)
    requires TrimmedSlice(s, r)
    ensures r == [] <==> AllSpace(s)
    ensures r != [] ==> r == s[RunEnd(s, Whitespace, 0)..RunStart(s, Whitespace, |s|)]
  {
    var a :| 0 <= a <= |s| - |r| && r == s[a..a + |r|] && AllSpace(s[..a]) && AllSpace(s[a + |r|..]);
    var e := a + |r|;
    SpaceAround(s, a, e);
    if r != [] {
      assert s[a] == r[0] && s[e - 1] == r[|r| - 1];
      StartIsRunEnd(s, a);
      EndIsRunStart(s, e);
    }
  }

  lemma SpaceAround(s: string, a: nat, e: nat)
    requires a <= e <= |s| && AllSpace(s[..a]) && AllSpace(s[e..])
    ensures forall m :: 0 <= m < a ==> IsSpace(s[m])
    ensures forall m :: e <= m < |s| ==> IsSpace(s[m])
  {
    forall m | 0 <= m < a ensures IsSpace(s[m]) {
      assert s[..a][m] == s[m];
    }
    forall m | e <= m < |s| ensures IsSpace(s[m]) {
      assert s[e..][m - e] == s[m];
    }
  }

  /** The first visible character is where the leading run of white space ends. */
  lemma StartIsRunEnd(s: string, a: nat)
    requires a < |s| && !IsSpace(s[a])
    requires forall m :: 0 <= m < a ==> IsSpace(s[m])
    ensures RunEnd(s, Whitespace, 0) == a
  {
    var i := RunEnd(s, Whitespace, 0);
    assert !InClass(Whitespace, s[a]);
    assert i <= a;
    assert i == |s| || !InClass(Whitespace, s[i]);
  }

  /** Just after the last visible character is where the trailing run starts. */
  lemma EndIsRunStart(s: string, e: nat)
    requires 0 < e <= |s| && !IsSpace(s[e - 1])
    requires forall m :: e <= m < |s| ==> IsSpace(s[m])
    ensures RunStart(s, Whitespace, |s|) == e
  {
    var j := RunStart(s, Whitespace, |s|);
    assert !InClass(Whitespace, s[e - 1]);
    assert j >= e;
    assert j == 0 || !InClass(Whitespace, s[j - 1]);
  }

  lemma TrimStartStops(s: string, k: CharClass)
    requires s == [] || !InClass(k, s[0])
    ensures TrimStart(s, k) == s
  {
  }

  lemma TrimEndStops(s: string, k: CharClass)
    requires s == [] || !InClass(k, s[|s| - 1])
    ensures TrimEnd(s, k) == s
  {
  }

  /** `s.replace(/k+/g, '-')`: every maximal run of class-`k` characters
      becomes a single `-`. */
  function ReplaceRuns(s: string, k: CharClass): (r: string)
    ensures (|r| == 0) <==> (|s| == 0)
    ensures |r| <= |s|
    ensures |s| > 0 && InClass(k, s[0]) ==> r[0] == '-'
    ensures |s| > 0 && !InClass(k, s[0]) ==> r[0] == s[0]
    ensures forall i :: 0 <= i < |r| ==> r[i] == '-' || (!InClass(k, r[i]) && r[i] in s)
    ensures forall i :: 0 <= i < |r| - 1 ==> !RunAt(k, r, i)
    decreases |s|
  {
    if s == [] then []
    else if InClass(k, s[0]) then
      var rest := TrimStart(s, k);
      assert |rest| < |s|;
      var tail := ReplaceRuns(rest, k);
      assert forall i :: 0 <= i < |rest| ==> rest[i] in s;
      ConsKeepsRunFree('-', tail, k);
      "-" + tail
    else
      var tail := ReplaceRuns(s[1..], k);
      assert forall i :: 0 <= i < |tail| ==> tail[i] == '-' || tail[i] in s;
      ConsKeepsRunFree(s[0], tail, k);
      [s[0]] + tail
  }

  /** Putting `c` in front of a string without runs makes no run unless
      both `c` and the first character are of class `k`. */
  lemma ConsKeepsRunFree(c: char, tail: string, k: CharClass)
    requires forall i :: 0 <= i < |tail| - 1 ==> !RunAt(k, tail, i)
    requires tail == [] || !(InClass(k, c) && InClass(k, tail[0]))
    ensures forall i :: 0 <= i < |[c] + tail| - 1 ==> !RunAt(k, [c] + tail, i)
  {
    var r := [c] + tail;
    forall i | 0 <= i < |r| - 1 ensures !RunAt(k, r, i) {
      if i > 0 {
        assert !RunAt(k, tail, i - 1);
      }
    }
  }

  /** The class-`k` characters of `s` are dashes, none next to another. */
  predicate IsolatedDashes(s: string, k: CharClass) {
    && (forall i :: 0 <= i < |s| && InClass(k, s[i]) ==> s[i] == '-')
    && (forall i :: 0 <= i < |s| - 1 ==> !RunAt(k, s, i))
  }

  lemma IsolatedDashesTail(s: string, k: CharClass)
    requires s != [] && IsolatedDashes(s, k)
    ensures IsolatedDashes(s[1..], k)
    ensures InClass(k, s[0]) ==> s[0] == '-' && (s[1..] == [] || !InClass(k, s[1..][0]))
  {
    var tail := s[1..];
    assert forall i :: 0 <= i < |tail| ==> tail[i] == s[i + 1];
    forall i | 0 <= i < |tail| - 1 ensures !RunAt(k, tail, i) {
      assert !RunAt(k, s, i + 1);
    }
    if |s| > 1 {
      assert !RunAt(k, s, 0);
    }
  }

  lemma TrimStartSingle(s: string, k: CharClass)
    requires s != [] && InClass(k, s[0])
    requires s[1..] == [] || !InClass(k, s[1..][0])
    ensures TrimStart(s, k) == s[1..]
  {
  }

  /** A string whose class-`k` characters are isolated dashes is left as it is. */
  lemma {:induction false} ReplaceRunsFixesIsolatedDashes(s: string, k: CharClass)
    requires IsolatedDashes(s, k)
    ensures ReplaceRuns(s, k) == s
    decreases |s|
  {
    if s != [] {
      var tail := s[1..];
      if InClass(k, s[0]) {
        calc {
          ReplaceRuns(s, k);
          == { ReplaceRunsAtRun(s, k); }
          "-" + ReplaceRuns(TrimStart(s, k), k);
          == { IsolatedDashesTail(s, k); TrimStartSingle(s, k); }
          "-" + ReplaceRuns(tail, k);
          == { IsolatedDashesTail(s, k); ReplaceRunsFixesIsolatedDashes(tail, k); }
          "-" + tail;
          == { IsolatedDashesTail(s, k); assert s == [s[0]] + tail; }
          s;
        }
      } else {
        calc {
          ReplaceRuns(s, k);
          == { ReplaceRunsAtOther(s, k); }
          [s[0]] + ReplaceRuns(tail, k);
          == { IsolatedDashesTail(s, k); ReplaceRunsFixesIsolatedDashes(tail, k); }
          [s[0]] + tail;
          == { assert s == [s[0]] + tail; }
          s;
        }
      }
    }
  }

  /** A run at the front of `s` becomes one dash. */
  lemma ReplaceRunsAtRun(s: string, k: CharClass)
    requires s != [] && InClass(k, s[0])
    ensures ReplaceRuns(s, k) == "-" + ReplaceRuns(TrimStart(s, k), k)
  {
  }

  /** A first character outside class `k` is kept. */
  lemma ReplaceRunsAtOther(s: string, k: CharClass)
    requires s != [] && !InClass(k, s[0])
    ensures ReplaceRuns(s, k) == [s[0]] + ReplaceRuns(s[1..], k)
  {
  }

  /** The characters of `s` that run replacement neither removes nor
      writes (outside class `k` and not `-`), in order. */
  function Untouched(s: string, k: CharClass): string
    decreases |s|
  {
    if s == [] then []
    else if InClass(k, s[0]) || s[0] == '-' then Untouched(s[1..], k)
    else [s[0]] + Untouched(s[1..], k)
  }

  /** Run replacement keeps every other character, in order: only runs of
      class `k` turn into `-`. */
  lemma {:induction false} ReplaceRunsKeepsUntouched(s: string, k: CharClass)
    ensures Untouched(ReplaceRuns(s, k), k) == Untouched(s, k)
    decreases |s|
  {
    if s == [] {
    } else if InClass(k, s[0]) {
      var rest := TrimStart(s, k);
      ReplaceRunsAtRun(s, k);
      var out := ReplaceRuns(rest, k);
      assert ("-" + out)[1..] == out;
      ReplaceRunsKeepsUntouched(rest, k);
      UntouchedSkipsRun(s, k, |s| - |rest|);
    } else {
      ReplaceRunsAtOther(s, k);
      var out := ReplaceRuns(s[1..], k);
      assert ([s[0]] + out)[1..] == out;
      ReplaceRunsKeepsUntouched(s[1..], k);
    }
  }

  /** A leading run of class-`k` characters contributes nothing. */
  lemma {:induction false} UntouchedSkipsRun(s: string, k: CharClass, n: nat)
    requires n <= |s|
    requires forall m :: 0 <= m < n ==> InClass(k, s[m])
    ensures Untouched(s, k) == Untouched(s[n..], k)
    decreases n
  {
    if n > 0 {
      assert s[1..][n - 1..] == s[n..];
      UntouchedSkipsRun(s[1..], k, n - 1);
    }
  }

  // ---------------------------------------------------------------------
  // slugify
  // ---------------------------------------------------------------------

  /** The characters the `/[^\w\s-]/g` pass keeps. */
  predicate SlugKeeps(c: char) {
    IsWordChar(c) || IsSpace(c) || c == '-'
  }

  /** `s.replace(/[^\w\s-]/g, '')`. */
  function RemoveDisallowed(s: string): (r: string)
    ensures forall i :: 0 <= i < |r| ==> SlugKeeps(r[i]) && r[i] in s
    ensures forall i :: 0 <= i < |s| && SlugKeeps(s[i]) ==> s[i] in r
    ensures (forall i :: 0 <= i < |s| ==> SlugKeeps(s[i])) ==> r == s
  {
    if s == [] then []
    else
      var tail := RemoveDisallowed(s[1..]);
      assert forall i :: 0 <= i < |tail| ==> tail[i] in s;
      if SlugKeeps(s[0]) then [s[0]] + tail else tail
  }

  predicate IsSlugChar(c: char) {
    IsAsciiLower(c) || IsDigit(c) || c == '-'
  }

  /** What `slugify` produces: lower-case letters, digits and single dashes,
      with no dash at either end. */
  predicate IsSlug(s: string) {
    DashSeparated(s) && (s == [] || (s[0] != '-' && s[|s| - 1] != '-'))
  }

  /** `slugify` of `src/lib/utils.ts`. */
  function Slugify(text: string): (r: string)
    ensures IsSlug(r)
  {
    var lowered := ToLower(text);
    var trimmed := Trim(lowered);
    var kept := RemoveDisallowed(trimmed);
    var dashed := ReplaceRuns(kept, SlugSeparator);
    SlugStepsGiveSlug(lowered, trimmed, kept, dashed);
    TrimEnd(TrimStart(dashed, Dash), Dash)
  }

  lemma SlugStepsGiveSlug(lowered: string, trimmed: string, kept: string, dashed: string)
    requires forall i :: 0 <= i < |lowered| ==> !IsAsciiUpper(lowered[i])
    requires forall i :: 0 <= i < |trimmed| ==> trimmed[i] in lowered
    requires forall i :: 0 <= i < |kept| ==> SlugKeeps(kept[i]) && kept[i] in trimmed
    requires forall i :: 0 <= i < |dashed| ==>
      dashed[i] == '-' || (!InClass(SlugSeparator, dashed[i]) && dashed[i] in kept)
    requires forall i :: 0 <= i < |dashed| - 1 ==>
      !RunAt(SlugSeparator, dashed, i)
    ensures IsSlug(TrimEnd(TrimStart(dashed, Dash), Dash))
  {
    NoUpperCarriesOver(lowered, trimmed);
    NoUpperCarriesOver(trimmed, kept);
    DashedIsDashSeparated(kept, dashed);
    SlicePreservesSlugShape(dashed);
  }

  /** Characters drawn from a string without upper-case letters have none. */
  lemma NoUpperCarriesOver(source: string, drawn: string)
    requires forall i :: 0 <= i < |source| ==> !IsAsciiUpper(source[i])
    requires forall i :: 0 <= i < |drawn| ==> drawn[i] in source
    ensures forall i :: 0 <= i < |drawn| ==> !IsAsciiUpper(drawn[i])
  {
    forall i | 0 <= i < |drawn| ensures !IsAsciiUpper(drawn[i]) {
      var n :| 0 <= n < |source| && source[n] == drawn[i];
    }
  }

  /** After the run replacement every character is a slug character and
      no two dashes are adjacent. */
  lemma DashedIsDashSeparated(kept: string, dashed: string)
    requires forall i :: 0 <= i < |kept| ==> SlugKeeps(kept[i]) && !IsAsciiUpper(kept[i])
    requires forall i :: 0 <= i < |dashed| ==>
      dashed[i] == '-' || (!InClass(SlugSeparator, dashed[i]) && dashed[i] in kept)
    requires forall i :: 0 <= i < |dashed| - 1 ==> !RunAt(SlugSeparator, dashed, i)
    ensures DashSeparated(dashed)
  {
    forall i | 0 <= i < |dashed| ensures IsSlugChar(dashed[i]) {
      if dashed[i] != '-' {
        var n :| 0 <= n < |kept| && kept[n] == dashed[i];
      }
    }
    forall i | 0 <= i < |dashed| - 1 ensures !RunAt(Dash, dashed, i) {
      assert !RunAt(SlugSeparator, dashed, i);
    }
  }

  /** Slug characters with no two adjacent dashes. */
  predicate DashSeparated(s: string) {
    && (forall i :: 0 <= i < |s| ==> IsSlugChar(s[i]))
    && (forall i :: 0 <= i < |s| - 1 ==> !RunAt(Dash, s, i))
  }

  lemma DashSeparatedSlice(s: string, a: nat, b: nat)
    requires DashSeparated(s)
    requires a <= b <= |s|
    ensures DashSeparated(s[a..b])
  {
    var t := s[a..b];
    assert forall i :: 0 <= i < |t| ==> t[i] == s[a + i];
    forall i | 0 <= i < |t| - 1 ensures !RunAt(Dash, t, i) {
      assert !RunAt(Dash, s, a + i);
    }
  }

  /** Cutting dashes off both ends of a dash-separated string gives a slug. */
  lemma SlicePreservesSlugShape(dashed: string)
    requires DashSeparated(dashed)
    ensures IsSlug(TrimEnd(TrimStart(dashed, Dash), Dash))
  {
    var front := TrimStart(dashed, Dash);
    var r := TrimEnd(front, Dash);
    assert DashSeparated(r) by {
      DashSeparatedSlice(dashed, |dashed| - |front|, |dashed|);
      assert dashed[|dashed| - |front|..|dashed|] == front;
      DashSeparatedSlice(front, 0, |r|);
    }
    assert r == [] || (r[0] != '-' && r[|r| - 1] != '-') by {
      assert r == [] || r[0] == front[0];
    }
  }


  /** A slug is a fixed point of `slugify`. */
  lemma SlugifyFixesSlugs(s: string)
    requires IsSlug(s)
    ensures Slugify(s) == s
  {
    SlugifyUnfold(s);
    LowerTrimFixesSlug(s);
    FilterAndRunsFixSlug(s);
    TrimDashFixesSlug(s);
  }

  lemma SlugifyUnfold(s: string)
    ensures Slugify(s)
      == TrimEnd(TrimStart(ReplaceRuns(RemoveDisallowed(Trim(ToLower(s))), SlugSeparator), Dash), Dash)
  {
  }

  lemma LowerTrimFixesSlug(s: string)
    requires IsSlug(s)
    ensures Trim(ToLower(s)) == s
  {
    ToLowerOfLower(s);
    TrimFixesSlug(s);
  }

  lemma FilterAndRunsFixSlug(s: string)
    requires IsSlug(s)
    ensures ReplaceRuns(RemoveDisallowed(s), SlugSeparator) == s
  {
    RemoveDisallowedFixesSlug(s);
    ReplaceRunsFixesSlug(s);
  }

  lemma TrimFixesSlug(s: string)
    requires IsSlug(s)
    ensures Trim(s) == s
  {
    assert s == [] || (!IsSpace(s[0]) && !IsSpace(s[|s| - 1])) by {
      if s != [] {
        assert IsSlugChar(s[0]) && IsSlugChar(s[|s| - 1]);
      }
    }
  }

  lemma RemoveDisallowedFixesSlug(s: string)
    requires IsSlug(s)
    ensures RemoveDisallowed(s) == s
  {
    assert forall i :: 0 <= i < |s| ==> SlugKeeps(s[i]) by {
      forall i | 0 <= i < |s| ensures SlugKeeps(s[i]) {
        assert IsSlugChar(s[i]);
      }
    }
  }

  lemma ReplaceRunsFixesSlug(s: string)
    requires IsSlug(s)
    ensures ReplaceRuns(s, SlugSeparator) == s
  {
    forall i | 0 <= i < |s|
      ensures InClass(SlugSeparator, s[i]) <==> s[i] == '-'
    {
      assert IsSlugChar(s[i]);
    }
    forall i | 0 <= i < |s| - 1 ensures !RunAt(SlugSeparator, s, i) {
      assert !RunAt(Dash, s, i);
    }
    assert IsolatedDashes(s, SlugSeparator);
    ReplaceRunsFixesIsolatedDashes(s, SlugSeparator);
  }

  lemma TrimDashFixesSlug(s: string)
    requires IsSlug(s)
    ensures TrimStart(s, Dash) == s && TrimEnd(s, Dash) == s
  {
    TrimStartStops(s, Dash);
    TrimEndStops(s, Dash);
  }

  /** `slugify(slugify(s)) == slugify(s)`. */
  lemma SlugifyIdempotent(text: string)
    ensures Slugify(Slugify(text)) == Slugify(text)
  {
    SlugifyFixesSlugs(Slugify(text));
  }

  // ---------------------------------------------------------------------
  // truncate
  // ---------------------------------------------------------------------

  /** `truncate(text, length)` of `src/lib/utils.ts`. */
  function Truncate(text: string, length: int): (r: string)
    ensures |text| <= length ==> r == text
    ensures |text| > length ==> |r| >= 3 && r[|r| - 3..] == "..."
    ensures |text| > length && length >= 0 ==> |r| <= length + 3
    ensures |text| > length ==>
      var kept := r[..|r| - 3];
      kept == [] || (!IsSpace(kept[0]) && !IsSpace(kept[|kept| - 1]))
    ensures |text| > length ==> forall i :: 0 <= i < |r| - 3 ==> r[i] in text
    ensures |text| > length ==> TrimmedSlice(text[..SliceEnd(|text|, length)], r[..|r| - 3])
  {
    if |text| <= length then text
    else
      var end := SliceEnd(|text|, length);
      var kept := Trim(text[..end]);
      DrawnFromPrefix(text, end, kept);
      WithEllipsis(kept);
      kept + "..."
  }

  lemma DrawnFromPrefix(text: string, end: nat, drawn: string)
    requires end <= |text|
    requires forall i :: 0 <= i < |drawn| ==> drawn[i] in text[..end]
    ensures forall i :: 0 <= i < |drawn| ==> drawn[i] in text
  {
    forall i | 0 <= i < |drawn| ensures drawn[i] in text {
      var j :| 0 <= j < end && text[..end][j] == drawn[i];
      assert text[j] == drawn[i];
    }
  }

  lemma WithEllipsis(kept: string)
    ensures var r := kept + "...";
      |r| == |kept| + 3 && r[..|r| - 3] == kept && r[|r| - 3..] == "..."
      && forall i :: 0 <= i < |kept| ==> r[i] == kept[i]
  {
    var r := kept + "...";
    assert r[..|r| - 3] == kept;
    assert r[|r| - 3..] == "...";
  }

  /** When the first `length` characters start and end with a visible
      character, `truncate` keeps exactly them. */
  lemma TruncateKeepsVisiblePrefix(text: string, length: nat)
    requires length < |text|
    requires length > 0 ==> !IsSpace(text[0]) && !IsSpace(text[length - 1])
    ensures Truncate(text, length) == text[..length] + "..."
  {
    var head := text[..length];
    assert head == [] || (!IsSpace(head[0]) && !IsSpace(head[|head| - 1]));
    assert Trim(head) == head;
  }

  // ---------------------------------------------------------------------
  // isWithinFreeAccess
  // ---------------------------------------------------------------------

  /** Whole days elapsed since `publishAt`, floored (negative for a future date). */
  function ElapsedDays(publishAt: int, now: int): int {
    (now - publishAt) / MS_PER_DAY
  }

  /** `isWithinFreeAccess(publishAt, freeAccessDays)` evaluated at `now`:
      within the window exactly when fewer than `freeAccessDays + 1` whole
      days have passed. */
  function IsWithinFreeAccess(publishAt: Option<int>, freeAccessDays: int, now: int): (r: bool)
    ensures publishAt.None? ==> r
    ensures publishAt.Some? ==>
      (r <==> now - publishAt.value < (freeAccessDays + 1) * MS_PER_DAY)
  {
    match publishAt
    case None => true
    case Some(p) => ElapsedDays(p, now) <= freeAccessDays
  }

  /** Exactly `freeAccessDays` whole days old is still inside the window;
      one more day is outside. */
  lemma FreeAccessBoundary(now: int, freeAccessDays: int)
    ensures IsWithinFreeAccess(Some(now - freeAccessDays * MS_PER_DAY), freeAccessDays, now)
    ensures !IsWithinFreeAccess(Some(now - (freeAccessDays + 1) * MS_PER_DAY), freeAccessDays, now)
  {
  }

  /** A post published in the future is always inside the window of a
      non-negative number of days. */
  lemma FutureIsWithinFreeAccess(publishAt: int, freeAccessDays: nat, now: int)
    requires publishAt > now
    ensures ElapsedDays(publishAt, now) < 0
    ensures IsWithinFreeAccess(Some(publishAt), freeAccessDays, now)
  {
  }

  /** Once outside the window, a post stays outside. */
  lemma FreeAccessExpiresForGood(publishAt: Option<int>, freeAccessDays: int, now: int, later: int)
    requires now <= later
    requires !IsWithinFreeAccess(publishAt, freeAccessDays, now)
    ensures !IsWithinFreeAccess(publishAt, freeAccessDays, later)
  {
  }
}
